=== FILE: README.md ===
# GitHub topics browser: verified model of the state core

A Dafny model of the non-UI core of a Kotlin Multiplatform GitHub-topics
browser. The model covers four pieces:

- **`ExpirableLRUCache`** (`LruCache`, `CacheRecency`): a cache in front of a
  plain map. It has an access-ordered key index bounded by `minimalSize`,
  which evicts the least recently used key. It also has a whole-cache timer
  that clears the delegate once `flushInterval` has passed.
- **`BrowserTabHandler` / `BrowserTab` / `Tabs`** (`BrowserTabs`): an ordered
  list of slots: pinned tabs, then regular tabs, then an optional end slot.
  The list has an integer selection, and its closing rules renumber it.
- **The desktop `AppViewModel`** (`DesktopApp`, `DesktopAppHistory`): a tab
  browser that starts with two pinned screens and the end slot. It opens one
  tab per repository. It keeps two histories of closed repositories, one for
  tabs and one for floating windows, and a flag naming the list touched
  last. "Reopen most recent" pops from the list the flag names.
- **`BaseRepoViewModel.load`** (`RepoLoading`): shows a repository's README.
  The README comes from the shared `Cached.cache` (10 entries, 5 minutes) or
  is downloaded by the repository's full name. A README that downloads
  successfully is cached under the repository's URL.

Modules:

- `Collections` models Kotlin's `List.indexOf`, which answers -1 when the
  element is absent.
- `Collections` also models `MutableList.remove(element)`, which drops only
  the first equal element.
- `GitHub` holds the two network records, `Topic` and `ReadMeResponse`.

Every operation is a pure function from the old state to the new one.
Clocks are explicit `now` arguments in nanoseconds, because the source reads
`System.nanoTime`. The README download is a function argument from the full
name to an outcome. That outcome is either a `ReadMeResponse` or "the call
threw".

The main results:

- The cache evicts exactly the tracked key whose last `get`/`set` lies
  furthest in the past (`CacheRecency.EvictsLeastRecentlyUsed`). It never
  holds more than `minimalSize` entries.
- From a pinned or regular slot, the tab selection cycles with period
  `|tabs| + |pinnedTabs|`, and `previousTab` undoes `nextTab`. From the end
  slot (where `openHistory` puts it) `nextTab` keeps counting up past the
  last slot and never wraps.
- Closing a present slot before or after the selection keeps the same slot
  selected. Closing the selected slot shows the slot that followed it, or,
  when it was the last regular slot, the slot before it. Closing an absent
  slot while a slot is selected (`selected >= 0`) still moves the selection
  to -1, because `indexOf` answers -1. With `selected == -1`, `closePinnedTab`
  only bumps `refreshKey`, and `closeTab` does so when the cycle is non-empty
  and otherwise moves the selection to -2. Below -1 nothing changes.
- Every reachable view-model state keeps its invariant:
  - the history flag names a non-empty list, and is `None` exactly when
    nothing can be reopened;
  - the histories are duplicate-free and disjoint;
  - open repository tabs have distinct URLs.
- So "reopen most recent" always makes progress. Right after closing a
  repository that was in neither history, it reopens that repository, as a
  new tab at the end of the regular tabs or as a new window; it does not
  restore the tab's old position. Closing a repository that is already in
  a history records nothing, so a reopen then pops whatever is last in the
  flagged list instead.

## Model

Paths are relative to the repository root.

| member | source | states |
|---|---|---|
| Collections.IndexOf | common/src/commonMain/kotlin/com/example/common/BrowserTab.kt:34 | `indexOf` answers -1 exactly when the element is absent. Otherwise it answers a position holding it, with no earlier occurrence. |
| Collections.RemoveFirst | common/src/commonMain/kotlin/com/example/common/BrowserTab.kt:49 | `remove(element)` leaves an absent element's list unchanged. Otherwise it cuts out exactly the first occurrence, and the multiset loses one copy. |
| Collections.RemoveLastOfDistinct | desktop/src/jvmMain/kotlin/AppViewModel.kt:41-42 | In a duplicate-free history, `lastOrNull()` followed by `remove(it)` drops exactly the tail position. |
| LruCache.NewWithDefaults | common/src/commonMain/kotlin/com/example/common/Cache.kt:99-103 | Omitted arguments give 100 entries and a one-minute flush interval. |
| LruCache.New | common/src/commonMain/kotlin/com/example/common/Cache.kt:99-123 | A new cache keeps the given bound and flush interval, tracks no key and starts its timer at construction. The delegate-keys-are-tracked invariant holds exactly when the delegate starts empty. |
| LruCache.Recycle | common/src/commonMain/kotlin/com/example/common/Cache.kt:161-167 | Once `flushInterval` ms have elapsed in nanoseconds, the delegate is emptied and the timer restarts. The key index is kept, and nothing changes otherwise. |
| LruCache.Touch | common/src/commonMain/kotlin/com/example/common/Cache.kt:146 | The access-order lookup `keyMap[key]` moves a tracked key to the most recent end and keeps the same multiset of keys. It never starts tracking an absent key. |
| LruCache.PutKey | common/src/commonMain/kotlin/com/example/common/Cache.kt:115-121 | `keyMap[key] = PRESENT` re-orders a tracked key without evicting. A new key is appended, and when the index then exceeds `minimalSize` its eldest key is reported for eviction. |
| LruCache.Set | common/src/commonMain/kotlin/com/example/common/Cache.kt:133-137 | After the timer check the value is stored. A tracked key becomes most recent, and a new key below the bound is appended. A new key crossing the bound evicts exactly the eldest key from both index and delegate. With room for one key, the value is stored and the key is most recent. |
| LruCache.Get | common/src/commonMain/kotlin/com/example/common/Cache.kt:144-148 | After the timer check, a hit returns the stored value and makes the key most recent. A miss or a due flush answers `None`, and an untracked key stays untracked. |
| LruCache.Remove | common/src/commonMain/kotlin/com/example/common/Cache.kt:139-142 | After the timer check, only the delegate loses the key, and the key index is untouched. The prior value comes back, or `None`. |
| LruCache.Clear | common/src/commonMain/kotlin/com/example/common/Cache.kt:150-153 | Both the index and the delegate are emptied. The timer is neither checked nor reset. |
| LruCache.Size | common/src/commonMain/kotlin/com/example/common/Cache.kt:127-131 | After the timer check it answers the delegate's live count. That is 0 when a flush is due and never above `minimalSize`. |
| LruCache.DelegateBounded | common/src/commonMain/kotlin/com/example/common/Cache.kt:96-97 | The cache keeps at most `minimalSize` items. |
| LruCache.GetAfterSet | common/src/commonMain/kotlin/com/example/common/Cache.kt:133-148 | A value just set is returned by `get` unless a flush falls in between. |
| LruCache.FlushObservesEmpty | common/src/commonMain/kotlin/com/example/common/Cache.kt:161-167 | When a flush is due, `get`, `remove` and `size` all see an empty cache, and `get` still re-orders the index. |
| LruCache.ClearIdempotent | common/src/commonMain/kotlin/com/example/common/Cache.kt:150-153 | Clearing twice is clearing once. |
| LruCache.SetPreservesValid | common/src/commonMain/kotlin/com/example/common/Cache.kt:133-137 | `set` keeps the index duplicate-free, within `minimalSize`, and covering the delegate's keys. |
| LruCache.GetPreservesValid | common/src/commonMain/kotlin/com/example/common/Cache.kt:144-148 | `get` keeps the same invariant. |
| LruCache.RemovePreservesValid | common/src/commonMain/kotlin/com/example/common/Cache.kt:139-142 | `remove` keeps the same invariant. |
| LruCache.GetKeepsOtherKeysInOrder | common/src/commonMain/kotlin/com/example/common/Cache.kt:115 | An access-ordered lookup moves the key to the end and keeps every other key in its relative order. |
| LruCache.SetKeepsOtherKeysInOrder | common/src/commonMain/kotlin/com/example/common/Cache.kt:133-137 | A `set` of a tracked key moves it to the end and keeps every other key in its relative order. |
| CacheRecency.StepKeepsOrder | common/src/commonMain/kotlin/com/example/common/Cache.kt:127-153 | Each of `set`, `get`, `remove`, `size` and `clear` keeps the key index ordered by last use. |
| CacheRecency.RunKeepsOrder | common/src/commonMain/kotlin/com/example/common/Cache.kt:115-121 | After any trace from an empty index, the index lists the tracked keys in order of last use. |
| CacheRecency.EvictsLeastRecentlyUsed | common/src/commonMain/kotlin/com/example/common/Cache.kt:95-97 | After any trace, a key that a `set` evicts is not the key being set and leaves the delegate. Its last use is older than that of every other tracked key. |
| CacheRecency.SetDropsOnlyWhenFull | common/src/commonMain/kotlin/com/example/common/Cache.kt:115-121 | A `set` drops a key from the index only when the key it sets is new and the index already holds `minimalSize` keys. |
| CacheRecency.SetEvictsOnlyTheEldest | common/src/commonMain/kotlin/com/example/common/Cache.kt:115-121 | A key that one `set` drops from the index is the eldest tracked key. It is not the key being set, and it is gone from the delegate too. |
| CacheRecency.SetDistinctKeysTracksAll | common/src/commonMain/kotlin/com/example/common/Cache.kt:115-121 | Setting at most `minimalSize` distinct keys tracks all of them in insertion order. |
| CacheRecency.OneOverTheBoundEvictsTheFirst | common/src/commonMain/kotlin/com/example/common/Cache.kt:115-121 | Setting `minimalSize + 1` distinct keys evicts the first one from index and delegate, and `size` stays within the bound. |
| BrowserTabs.PinUnpinRoundTrip | common/src/commonMain/kotlin/com/example/common/BrowserTab.kt:121-128 | `pin()` and `unpin()` are inverse conversions of a slot. |
| BrowserTabs.NewBrowserTab | common/src/commonMain/kotlin/com/example/common/BrowserTab.kt:102-114 | A new handler has no slots, the given initial selection and `refreshKey` 0. |
| BrowserTabs.Tabbed | common/src/commonMain/kotlin/com/example/common/BrowserTab.kt:11 | `tabbed` is the pinned slots, then the regular slots, then the end slot if present. |
| BrowserTabs.SelectedTab | common/src/commonMain/kotlin/com/example/common/BrowserTab.kt:15 | `getOrNull(selected)` is a slot exactly when `selected` is in range, and then it is the slot at that position. It names the pinned, regular or end slot by region. |
| BrowserTabs.RefreshTab | common/src/commonMain/kotlin/com/example/common/BrowserTab.kt:116-118 | Refreshing only bumps `refreshKey`. |
| BrowserTabs.NewPinnedTab | common/src/commonMain/kotlin/com/example/common/BrowserTab.kt:17-19 | A new pinned slot is inserted into `tabbed` right after the existing pinned slots. |
| BrowserTabs.NewTab | common/src/commonMain/kotlin/com/example/common/BrowserTab.kt:21-23 | A new regular slot is inserted into `tabbed` just before the end slot. Selection and refresh key stay. |
| BrowserTabs.HasEndTab | common/src/commonMain/kotlin/com/example/common/BrowserTab.kt:25-31 | The end slot is present exactly when requested, and the other slots stay. |
| BrowserTabs.SelectTab | common/src/commonMain/kotlin/com/example/common/BrowserTab.kt:87-89 | Selection is set without a range check, and out-of-range selects nothing. |
| BrowserTabs.ClosePinnedTab | common/src/commonMain/kotlin/com/example/common/BrowserTab.kt:33-50 | The pinned list loses exactly its first equal element and keeps its order. The selection shifts left when the slot lies before it, and closing the selected slot refreshes. After the selection nothing changes. For an absent slot `indexOf` answers -1: the selection steps back from a non-negative value, refreshes at -1, and stays below -1. |
| BrowserTabs.IndexOfTabInTabbed | common/src/commonMain/kotlin/com/example/common/BrowserTab.kt:53 | A regular slot's position in `tabbed` is the pinned count plus its position in `tabs`, or -1. |
| BrowserTabs.CloseTab | common/src/commonMain/kotlin/com/example/common/BrowserTab.kt:52-69 | These are the renumbering rules against the slot's position in `tabbed`. Before the selection it shifts left. At the selection it refreshes while a regular slot follows, otherwise it steps back. After the selection nothing changes. The first equal regular slot is removed. For an absent slot `indexOf` answers -1: a non-negative selection steps back, -1 refreshes when any pinned or regular slot exists and otherwise steps back to -2, and a selection below -1 stays. |
| BrowserTabs.CloseTabRemovesSlot | common/src/commonMain/kotlin/com/example/common/BrowserTab.kt:52-69 | `tabbed` after `closeTab` is `tabbed` with exactly that one position cut out. |
| BrowserTabs.CloseBeforeSelectedKeepsSelectedTab | common/src/commonMain/kotlin/com/example/common/BrowserTab.kt:55 | Closing a slot before the selection keeps the same slot selected. |
| BrowserTabs.CloseAfterSelectedKeepsSelectedTab | common/src/commonMain/kotlin/com/example/common/BrowserTab.kt:65 | Closing a slot after the selection keeps the same slot selected. |
| BrowserTabs.CloseSelectedShowsFollowingSlot | common/src/commonMain/kotlin/com/example/common/BrowserTab.kt:57-60 | Closing the selected slot while a regular slot follows shows that follower and forces a refresh. |
| BrowserTabs.CloseLastSelectedShowsPreviousSlot | common/src/commonMain/kotlin/com/example/common/BrowserTab.kt:57-62 | Closing the selected slot when it is the last regular slot shows the slot before it, or nothing if it was the only cycle slot, without a refresh. |
| BrowserTabs.ClosePinnedTabRemovesSlot | common/src/commonMain/kotlin/com/example/common/BrowserTab.kt:33-50 | `tabbed` after `closePinnedTab` is `tabbed` with exactly that pinned position cut out. |
| BrowserTabs.ClosePinnedBeforeSelectedKeepsSelectedTab | common/src/commonMain/kotlin/com/example/common/BrowserTab.kt:36 | Closing a pinned slot before the selection keeps the same slot selected. |
| BrowserTabs.ClosePinnedAfterSelectedKeepsSelectedTab | common/src/commonMain/kotlin/com/example/common/BrowserTab.kt:46 | Closing a pinned slot after the selection keeps the same slot selected. |
| BrowserTabs.ClosePinnedSelectedShowsFollowingSlot | common/src/commonMain/kotlin/com/example/common/BrowserTab.kt:38-40 | Closing the selected pinned slot shows the slot that followed it, or nothing if none did, and forces a refresh. |
| BrowserTabs.CloseTabKeepsSelectionInRange | common/src/commonMain/kotlin/com/example/common/BrowserTab.kt:52-69 | With a pinned slot present, closing a regular slot keeps an in-range selection in range. |
| BrowserTabs.NextTab | common/src/commonMain/kotlin/com/example/common/BrowserTab.kt:71-77 | Over pinned and regular slots, the selection advances by one modulo their count. From the last cycle slot it goes to 0, even when the cycle is empty and the selection is -1. From any other position, such as the end slot, it only counts up. Nothing else changes. |
| BrowserTabs.PreviousTab | common/src/commonMain/kotlin/com/example/common/BrowserTab.kt:79-85 | The selection moves back by one modulo the same count. From 0 it jumps to the last cycle slot, and from any other position it counts down. Nothing else changes. |
| BrowserTabs.NextTabsAdvance | common/src/commonMain/kotlin/com/example/common/BrowserTab.kt:71-77 | `k` presses of `nextTab` advance the selection by `k` modulo the count. |
| BrowserTabs.NextTabsCycle | common/src/commonMain/kotlin/com/example/common/BrowserTab.kt:71-77 | Pressing `nextTab` once per slot returns to the starting state. |
| BrowserTabs.PreviousUndoesNext | common/src/commonMain/kotlin/com/example/common/BrowserTab.kt:71-85 | `previousTab` undoes `nextTab` and vice versa. |
| BrowserTabs.PinTab | common/src/commonMain/kotlin/com/example/common/BrowserTab.kt:91-94 | The first equal regular slot is removed with the rest kept in order, and the payload is appended to the pinned list. Pinning a present tab keeps the multiset of all slots. |
| BrowserTabs.UnpinTab | common/src/commonMain/kotlin/com/example/common/BrowserTab.kt:96-99 | The first equal pinned slot is removed with the rest kept in order, and the payload is appended to the regular list. Unpinning a present tab keeps the multiset of all slots. |
| BrowserTabs.PinThenUnpinRestoresNewTab | common/src/commonMain/kotlin/com/example/common/BrowserTab.kt:91-99 | Pinning the newest regular tab and unpinning it again restores the handler. |
| DesktopApp.Init | desktop/src/jvmMain/kotlin/AppViewModel.kt:11-22 | The view model starts with two pinned screens and the end slot, the second screen selected, `refreshKey` 0, and empty histories. The invariant holds. |
| DesktopApp.NewTab | desktop/src/jvmMain/kotlin/AppViewModel.kt:91-96 | A repository tab is appended only when no regular tab shows that `htmlUrl`. Afterwards one does, and nothing else changes. |
| DesktopApp.HasOpenRepoInTabs | desktop/src/jvmMain/kotlin/AppViewModel.kt:92-94 | The repository filter over `tabbed` sees exactly the regular tabs. |
| DesktopApp.NewTabKeepsReposUnique | desktop/src/jvmMain/kotlin/AppViewModel.kt:91-96 | `newTab` never opens a second tab for one `htmlUrl`. |
| DesktopApp.RecordClosed | desktop/src/jvmMain/kotlin/AppViewModel.kt:105-108 | A repository absent from both histories is appended to the chosen list and sets the flag. Otherwise nothing changes. No field other than the two histories and the flag ever changes. |
| DesktopApp.CloseTab | desktop/src/jvmMain/kotlin/AppViewModel.kt:102-109 | The tab is closed by the handler's rules, and a new repository is recorded in the tab history with flag `Tab`. No other field changes. |
| DesktopApp.CloseWindow | desktop/src/jvmMain/kotlin/AppViewModel.kt:83-89 | The window is removed, and a new repository is recorded in the window history with flag `Window`. No other field changes. |
| DesktopApp.RederiveFlag | desktop/src/jvmMain/kotlin/AppViewModel.kt:54-58 | The flag becomes `None`, `Window` or `Tab` when only those lists are non-empty, and is kept when both are non-empty. |
| DesktopApp.ReopenTabOrWindow | desktop/src/jvmMain/kotlin/AppViewModel.kt:38-59 | The tail of the flagged list is removed and reopened as a tab or a window. With flag `None`, or a flag naming an empty list, nothing is reopened. The flag is then re-derived. The view flags do not change. |
| DesktopApp.ReopenTab | desktop/src/jvmMain/kotlin/AppViewModel.kt:61-70 | The given repository is removed from the tab history and opened as a tab, and the flag is re-derived. No other field changes. |
| DesktopApp.ReopenWindow | desktop/src/jvmMain/kotlin/AppViewModel.kt:72-81 | The given repository is removed from the window history and its window is added, and the flag is re-derived. No other field changes. |
| DesktopApp.NextTab | desktop/src/jvmMain/kotlin/AppViewModel.kt:111-114 | It leaves the history view and advances the handler, and nothing else changes. |
| DesktopApp.PreviousTab | desktop/src/jvmMain/kotlin/AppViewModel.kt:116-119 | It leaves the history view and steps the handler back, and nothing else changes. From a slot of the cycle, a following `nextTab` restores the original state with the history view closed. |
| DesktopApp.SelectTab | desktop/src/jvmMain/kotlin/AppViewModel.kt:121-124 | It leaves the history view and selects the index, and nothing else changes. |
| DesktopApp.SetSelected | desktop/src/jvmMain/kotlin/AppViewModel.kt:23-25 | The `selected` setter selects without leaving the history view. |
| DesktopApp.OpenHistory | desktop/src/jvmMain/kotlin/AppViewModel.kt:131-134 | It shows the history view and selects the last slot, which is the end slot when present. Nothing else changes, in the handler or elsewhere. |
| DesktopApp.CloseSelectedTab | desktop/src/jvmMain/kotlin/AppViewModel.kt:126-129 | Only a selected regular tab is closed, and no history or other field changes. |
| DesktopApp.OpenWindow | desktop/src/jvmMain/kotlin/HistoryUi.kt:77 | `repoWindows.add`, called by the history screen, appends the window and changes nothing else. |
| DesktopAppHistory.RemoveFirstKeepsReposUnique | desktop/src/jvmMain/kotlin/AppViewModel.kt:102-103 | Removing a regular tab keeps the remaining repository tabs with distinct `htmlUrl`s. |
| DesktopAppHistory.RecordClosedKeepsHistory | desktop/src/jvmMain/kotlin/AppViewModel.kt:105-108 | Recording a closed repository keeps the flag consistent and the histories duplicate-free and disjoint. |
| DesktopAppHistory.RemoveFromHistoryKeepsDisjoint | desktop/src/jvmMain/kotlin/AppViewModel.kt:62 | Removing one repository from a history keeps both lists duplicate-free and disjoint. |
| DesktopAppHistory.CloseTabKeepsInv | desktop/src/jvmMain/kotlin/AppViewModel.kt:102-109 | `closeTab` keeps the invariant. |
| DesktopAppHistory.CloseWindowKeepsInv | desktop/src/jvmMain/kotlin/AppViewModel.kt:83-89 | `closeWindow` keeps the invariant. |
| DesktopAppHistory.ReopenTabKeepsInv | desktop/src/jvmMain/kotlin/AppViewModel.kt:61-70 | `reopenTab` keeps the invariant for any argument. |
| DesktopAppHistory.ReopenWindowKeepsInv | desktop/src/jvmMain/kotlin/AppViewModel.kt:72-81 | `reopenWindow` keeps the invariant for any argument. |
| DesktopAppHistory.ReopenTabOrWindowKeepsInv | desktop/src/jvmMain/kotlin/AppViewModel.kt:38-59 | `reopenTabOrWindow` keeps the invariant. |
| DesktopAppHistory.CloseSelectedTabKeepsInv | desktop/src/jvmMain/kotlin/AppViewModel.kt:126-129 | `closeSelectedTab` keeps the invariant. |
| DesktopAppHistory.StepKeepsInv | desktop/src/jvmMain/kotlin/AppViewModel.kt:11-134 | Every public action keeps the invariant. |
| DesktopAppHistory.ReachableInv | desktop/src/jvmMain/kotlin/AppViewModel.kt:36 | Every reachable state satisfies the invariant, and there `canReopen` holds exactly when the flag is not `None`. |
| DesktopAppHistory.ReopenProgress | desktop/src/jvmMain/kotlin/AppViewModel.kt:38-59 | Under the invariant, whenever `canReopen` holds, a reopen removes exactly one history entry: the tail of the flagged list. A tab is then open for it, or its window was added. |
| DesktopAppHistory.ClosedRepoNotOpen | desktop/src/jvmMain/kotlin/AppViewModel.kt:102-103 | After its tab is closed, no regular tab shows that repository. |
| DesktopAppHistory.CloseTabThenReopen | desktop/src/jvmMain/kotlin/AppViewModel.kt:38-109 | Closing a repository tab not yet in the history and then reopening the most recent item restores both histories. The tab reopens last, and the flag names the tab list when it is non-empty. |
| DesktopAppHistory.CloseWindowThenReopen | desktop/src/jvmMain/kotlin/AppViewModel.kt:38-89 | Closing a window not yet in the history and then reopening the most recent item restores both histories. The window is added back last. |
| RepoLoading.NewReadMeCache | common/src/commonMain/kotlin/com/example/common/Cache.kt:12-15 | The shared cache holds 10 entries with a five-minute (300000 ms) interval, and starts empty. |
| RepoLoading.NewRepoVM | common/src/commonMain/kotlin/com/example/common/viewmodels/RepoViewModel.kt:13-16 | A new screen is `Loading`, with no error and the web view hidden. |
| RepoLoading.Load | common/src/commonMain/kotlin/com/example/common/viewmodels/RepoViewModel.kt:18-36 | A cache hit by `htmlUrl` shows the cached README, and the cache is only touched by the lookup. On a miss the download by `fullName` is shown, and only a `Success` is cached under `htmlUrl`. A thrown download sets `error` and keeps the content. The cache invariant is kept. |
| RepoLoading.LoadConsultsOnlyFullName | common/src/commonMain/kotlin/com/example/common/viewmodels/RepoViewModel.kt:25 | The network is consulted only at the repository's `fullName`. |
| RepoLoading.ReloadHitsCache | common/src/commonMain/kotlin/com/example/common/viewmodels/RepoViewModel.kt:19-28 | After a README is shown, a reload before the next flush is a cache hit and shows the same README whatever the network now answers. |
| RepoLoading.CachedSizeAsWritten | common/src/commonMain/kotlin/com/example/common/Cache.kt:16 | As written, the shared cache's delegate `size` is frozen at the builder's `map.size`, which is always 0. |
| RepoLoading.CachedSizeIgnoresStoredEntry | common/src/commonMain/kotlin/com/example/common/Cache.kt:85-86 | Right after one README is stored, the frozen `size` says 0 while the live count says 1. |

## Left out

- Compose UI, coroutines and `mutableStateOf` observation are left out. Each
  operation is modelled as one atomic state change.
- JSON decoding of topics and the HTTP client in `Network.kt` are left out.
  The README download is an argument returning a response or "threw".
  `Network.getReadMe` only ever returns `Success` or `Failed`, but `Load`
  accepts any response, including `Loading`.
- `GitHubTopic`'s many fields are reduced to `htmlUrl`, `fullName` and one
  `details` string that stands for the rest. They are compared by value, as
  the data class is.
- Kotlin's 64-bit `Long` for `System.nanoTime` is not modelled: clocks are
  unbounded integers, so `now - lastFlushTime` cannot wrap.
- The 32-bit `Int` of `selected` and `refreshKey` is not modelled either, so
  `refreshKey++` and `selected--` never wrap.
- A negative `minimalSize`, which makes `LinkedHashMap` throw at
  construction, is excluded by typing it as `nat`.
- `eldestKeyToRemove` is not state. It is set and cleared within a single
  `set`, so between calls it is always `null`.
- The `GenericCacheBuilder` delegate is modelled as a Dafny `map`. This is
  what the shared cache's builder wires (`map[key] = value`, `map[it]`,
  `map.remove`, `map.clear`). The frozen `size` is the exception, described
  under Findings.
- `TabType.Pinned` and `TabType.Normal` are plain classes, so Kotlin compares
  them by identity. The model compares them by value, like the data-class
  slot wrappers around them.
  - The two agree on the open repository tabs, because no two of them share
    an `htmlUrl` (`DesktopApp.OpenReposUnique`).
  - A caller that passes a fresh `TabType.Normal` to `closeTab` would close
    nothing in Kotlin, but closes the matching tab in the model.
- `newTab` casts every regular tab's payload to `TabType.Normal`. A regular
  tab holding a `Pinned` payload would make that cast throw. The invariant
  shows every regular tab is `Normal`, so the throw is unreachable and not
  modelled.
- The final `else -> selected = 0` branches of `closeTab` and
  `closePinnedTab` follow three exhaustive comparisons. They cannot be taken
  and are not modelled.
- `closedItems`, a derived map from flag values to the two lists, is left
  out. Its contents are the two history fields.
- `newTabAndOpen` only calls `newTab`, so it is `DesktopApp.NewTab`.
- `showTopicWindow` and `showWebView` are kept as fields that no modelled
  operation changes.
- The Android and web entry points, settings, favourites and the topic list
  are outside this model.
- `println` and `printStackTrace` in `load` are logging only.
- DesktopApp.CloseTab: takes the repository rather than the slot. In the
  source, `closeTab` receives a `Tabs.Tab<TabType>`, closes it in the
  handler, and only then casts its payload to `TabType.Normal`. A slot
  holding a `Pinned` payload would therefore be closed (if present) and the
  cast would throw `ClassCastException`, recording nothing. That throwing
  path is not modelled; callers only pass regular tabs, which hold
  repositories (`DesktopApp.OpenReposUnique`).
- LruCache.Recycle: the source reads `System.nanoTime()` twice, once for the
  check and once for the new `lastFlushTime`. The model uses one `now` for
  both, so the restarted timer may start a few nanoseconds earlier than in
  the source.
- LruCache.FlushDue: `TimeUnit.MILLISECONDS.toNanos` saturates at
  `Long.MAX_VALUE` for huge intervals. The model multiplies without a bound.
- DesktopApp.CloseSelectedTab: this member's contract does not relate the
  new selection to the old one. It defers to `BrowserTabs.CloseTab`, whose
  contract does.

## Findings

| source | as written | input that shows it | evidently intended | confidence | as-written member | corrected member |
|---|---|---|---|---|---|---|
| common/src/commonMain/kotlin/com/example/common/Cache.kt:16 | The builder block runs `size = map.size` once. The built delegate's `size` returns that stored number, and `map` is empty at that moment, so `Cached.cache.size` is always 0. | Build the shared cache, then `set` one README and read `size` before the next flush. The answer is 0 while one entry is held. | `size` is "the number of the items that are currently cached" (`GenericCache.size`, Cache.kt:33-35), i.e. the live `map.size`. | high; not executed | RepoLoading.CachedSizeAsWritten (counterexample: RepoLoading.CachedSizeIgnoresStoredEntry) | LruCache.Size |

=== FILE: app_history.dfy ===
/** What the desktop view model keeps true across every user action: the
    closed-repository flag always names a non-empty list (and is `None`
    exactly when there is nothing to reopen), the two history lists hold
    each repository at most once and never in both, and no two regular tabs
    show the same repository. On top of that invariant, "reopen most
    recent" always makes progress, and it undoes the latest close of a
    repository that was in neither history. A repository already recorded
    is not recorded again, so a reopen then pops whatever is last in the
    flagged list.
 */
module DesktopAppHistory {
  import Collections
  import opened GitHub
  import BrowserTabs
  import opened DesktopApp

  /** Every public entry point of the view model. */
  datatype Action =
    | OpenTab(topic: Topic)
    | CloseRepoTab(topic: Topic)
    | CloseRepoWindow(topic: Topic)
    | ReopenLatest
    | ReopenClosedTab(topic: Topic)
    | ReopenClosedWindow(topic: Topic)
    | GoNext
    | GoPrevious
    | Select(index: int)
    | AssignSelected(index: int)
    | ShowHistory
    | CloseSelected
    | AddWindow(topic: Topic)

  function Step(s: AppState, a: Action): AppState {
    match a
    case OpenTab(t) => NewTab(s, t)
    case CloseRepoTab(t) => CloseTab(s, t)
    case CloseRepoWindow(t) => CloseWindow(s, t)
    case ReopenLatest => ReopenTabOrWindow(s)
    case ReopenClosedTab(t) => ReopenTab(s, t)
    case ReopenClosedWindow(t) => ReopenWindow(s, t)
    case GoNext => DesktopApp.NextTab(s)
    case GoPrevious => DesktopApp.PreviousTab(s)
    case Select(i) => DesktopApp.SelectTab(s, i)
    case AssignSelected(i) => SetSelected(s, i)
    case ShowHistory => OpenHistory(s)
    case CloseSelected => CloseSelectedTab(s)
    case AddWindow(t) => OpenWindow(s, t)
  }

  /** The state after a sequence of actions from the freshly built view model. */
  function Run(actions: seq<Action>): AppState {
    if actions == [] then Init() else Step(Run(actions[..|actions| - 1]), actions[|actions| - 1])
  }

  /** Dropping one regular tab keeps the remaining ones repository tabs with
      distinct `htmlUrl`s. */
  lemma RemoveFirstKeepsReposUnique(b: BrowserTabs.BrowserTab<TabType>, x: TabType, b': BrowserTabs.BrowserTab<TabType>)
    requires OpenReposUnique(b) && b'.tabs == Collections.RemoveFirst(b.tabs, x)
    ensures OpenReposUnique(b')
  {
    var t, r := b.tabs, b'.tabs;
    if x in t {
      forall i | 0 <= i < |r| ensures r[i].Normal? {
        Collections.RemoveFirstAt(t, x, i);
      }
      forall i, j | 0 <= i < j < |r| && r[i].Normal? && r[j].Normal?
        ensures r[i].topic.htmlUrl != r[j].topic.htmlUrl
      {
        Collections.RemoveFirstAt(t, x, i);
        Collections.RemoveFirstAt(t, x, j);
      }
    }
  }

  /** Recording a closed repository keeps the flag and the lists consistent. */
  lemma RecordClosedKeepsHistory(s: AppState, topic: Topic, kind: WindowType)
    requires kind != None && FlagConsistent(s) && HistoryDisjoint(s)
    ensures FlagConsistent(RecordClosed(s, topic, kind)) && HistoryDisjoint(RecordClosed(s, topic, kind))
  {
    if topic !in s.closedTabRepos && topic !in s.closedWindowRepos {
      if kind == Tab {
        Collections.AppendFreshKeepsDistinct(s.closedTabRepos, topic);
      } else {
        Collections.AppendFreshKeepsDistinct(s.closedWindowRepos, topic);
      }
    }
  }

  /** Taking one repository out of a history list keeps both lists free of
      duplicates and disjoint. */
  lemma RemoveFromHistoryKeepsDisjoint(s: AppState, tabs: seq<Topic>, windows: seq<Topic>, topic: Topic)
    requires HistoryDisjoint(s)
    requires (tabs == Collections.RemoveFirst(s.closedTabRepos, topic) && windows == s.closedWindowRepos)
          || (windows == Collections.RemoveFirst(s.closedWindowRepos, topic) && tabs == s.closedTabRepos)
    ensures Collections.Distinct(tabs) && Collections.Distinct(windows)
    ensures forall t :: t in tabs ==> t !in windows
  {
    Collections.RemoveFirstKeepsDistinct(s.closedTabRepos, topic);
    Collections.RemoveFirstKeepsDistinct(s.closedWindowRepos, topic);
    forall t | t in tabs ensures t !in windows {
      Collections.RemoveFirstMembers(s.closedTabRepos, topic, t);
      Collections.RemoveFirstMembers(s.closedWindowRepos, topic, t);
    }
  }

  /** `closeTab` keeps the invariant. */
  lemma CloseTabKeepsInv(s: AppState, topic: Topic)
    requires Inv(s)
    ensures Inv(CloseTab(s, topic))
  {
    var closed := s.(browserTab := BrowserTabs.CloseTab(s.browserTab, Normal(topic)));
    RemoveFirstKeepsReposUnique(s.browserTab, Normal(topic), closed.browserTab);
    RecordClosedKeepsHistory(closed, topic, Tab);
  }

  /** `closeWindow` keeps the invariant. */
  lemma CloseWindowKeepsInv(s: AppState, topic: Topic)
    requires Inv(s)
    ensures Inv(CloseWindow(s, topic))
  {
    RecordClosedKeepsHistory(s.(repoWindows := Collections.RemoveFirst(s.repoWindows, topic)), topic, Window);
  }

  /** `reopenTab` keeps the invariant, whether or not the repository was in
      the tab history. */
  lemma ReopenTabKeepsInv(s: AppState, topic: Topic)
    requires Inv(s)
    ensures Inv(ReopenTab(s, topic))
  {
    var removed := Collections.RemoveFirst(s.closedTabRepos, topic);
    RemoveFromHistoryKeepsDisjoint(s, removed, s.closedWindowRepos, topic);
    NewTabKeepsReposUnique(s.(closedTabRepos := removed), topic);
  }

  /** `reopenWindow` keeps the invariant. */
  lemma ReopenWindowKeepsInv(s: AppState, topic: Topic)
    requires Inv(s)
    ensures Inv(ReopenWindow(s, topic))
  {
    RemoveFromHistoryKeepsDisjoint(s, s.closedTabRepos, Collections.RemoveFirst(s.closedWindowRepos, topic), topic);
  }

  /** `reopenTabOrWindow` keeps the invariant. */
  lemma ReopenTabOrWindowKeepsInv(s: AppState)
    requires Inv(s)
    ensures Inv(ReopenTabOrWindow(s))
  {
    if s.closedWindowType == Tab {
      var t := s.closedTabRepos[|s.closedTabRepos| - 1];
      var removed := Collections.RemoveFirst(s.closedTabRepos, t);
      RemoveFromHistoryKeepsDisjoint(s, removed, s.closedWindowRepos, t);
      NewTabKeepsReposUnique(s.(closedTabRepos := removed), t);
    } else if s.closedWindowType == Window {
      var t := s.closedWindowRepos[|s.closedWindowRepos| - 1];
      RemoveFromHistoryKeepsDisjoint(s, s.closedTabRepos, Collections.RemoveFirst(s.closedWindowRepos, t), t);
    }
  }

  /** `closeSelectedTab` keeps the invariant. */
  lemma CloseSelectedTabKeepsInv(s: AppState)
    requires Inv(s)
    ensures Inv(CloseSelectedTab(s))
  {
    var slot := BrowserTabs.SelectedTab(s.browserTab);
    if slot.Some? && slot.value.Tab? {
      RemoveFirstKeepsReposUnique(s.browserTab, slot.value.data, CloseSelectedTab(s).browserTab);
    }
  }

  /** An action that changes neither the regular tabs nor the history keeps
      the invariant. */
  lemma SameTabsAndHistoryKeepInv(s: AppState, r: AppState)
    requires Inv(s)
    requires r.browserTab.tabs == s.browserTab.tabs
    requires r.closedTabRepos == s.closedTabRepos && r.closedWindowRepos == s.closedWindowRepos
    requires r.closedWindowType == s.closedWindowType
    ensures Inv(r)
  {
  }

  /** Every action keeps the invariant. */
  lemma StepKeepsInv(s: AppState, a: Action)
    requires Inv(s)
    ensures Inv(Step(s, a))
  {
    var r := Step(s, a);
    match a {
      case OpenTab(t) =>
        assert r == NewTab(s, t);
        NewTabKeepsReposUnique(s, t);
      case CloseRepoTab(t) =>
        assert r == CloseTab(s, t);
        CloseTabKeepsInv(s, t);
      case CloseRepoWindow(t) =>
        assert r == CloseWindow(s, t);
        CloseWindowKeepsInv(s, t);
      case ReopenLatest =>
        assert r == ReopenTabOrWindow(s);
        ReopenTabOrWindowKeepsInv(s);
      case ReopenClosedTab(t) =>
        assert r == ReopenTab(s, t);
        ReopenTabKeepsInv(s, t);
      case ReopenClosedWindow(t) =>
        assert r == ReopenWindow(s, t);
        ReopenWindowKeepsInv(s, t);
      case GoNext => SameTabsAndHistoryKeepInv(s, r);
      case GoPrevious => SameTabsAndHistoryKeepInv(s, r);
      case Select(i) => SameTabsAndHistoryKeepInv(s, r);
      case AssignSelected(i) => SameTabsAndHistoryKeepInv(s, r);
      case ShowHistory => SameTabsAndHistoryKeepInv(s, r);
      case CloseSelected =>
        assert r == CloseSelectedTab(s);
        CloseSelectedTabKeepsInv(s);
      case AddWindow(t) => SameTabsAndHistoryKeepInv(s, r);
    }
  }

  /** Every state the view model can reach satisfies the invariant; in
      particular `canReopen` holds exactly when the flag is not `None`. */
  lemma {:induction false} ReachableInv(actions: seq<Action>)
    ensures Inv(Run(actions))
    ensures CanReopen(Run(actions)) <==> Run(actions).closedWindowType != None
  {
    if actions != [] {
      ReachableInv(actions[..|actions| - 1]);
      StepKeepsInv(Run(actions[..|actions| - 1]), actions[|actions| - 1]);
    }
  }

  /** "Reopen most recent" never gets stuck: whenever `canReopen` holds it
      takes exactly one repository out of the history, the latest one added
      to the list the flag names. */
  lemma ReopenProgress(s: AppState)
    requires Inv(s) && CanReopen(s)
    ensures var r := ReopenTabOrWindow(s);
            |r.closedTabRepos| + |r.closedWindowRepos| == |s.closedTabRepos| + |s.closedWindowRepos| - 1
    ensures var r := ReopenTabOrWindow(s);
            s.closedWindowType == Tab ==>
              && r.closedTabRepos == s.closedTabRepos[..|s.closedTabRepos| - 1]
              && HasOpenRepo(r.browserTab, s.closedTabRepos[|s.closedTabRepos| - 1].htmlUrl)
    ensures var r := ReopenTabOrWindow(s);
            s.closedWindowType == Window ==>
              && r.closedWindowRepos == s.closedWindowRepos[..|s.closedWindowRepos| - 1]
              && r.repoWindows == s.repoWindows + [s.closedWindowRepos[|s.closedWindowRepos| - 1]]
  {
    if s.closedWindowType == Tab {
      Collections.RemoveLastOfDistinct(s.closedTabRepos);
    } else {
      Collections.RemoveLastOfDistinct(s.closedWindowRepos);
    }
  }

  /** With distinct `htmlUrl`s, the tab `Normal(topic)` is the only one
      showing its repository, so after closing it none is left. */
  lemma ClosedRepoNotOpen(b: BrowserTabs.BrowserTab<TabType>, topic: Topic)
    requires OpenReposUnique(b) && Normal(topic) in b.tabs
    ensures !HasOpenRepo(BrowserTabs.CloseTab(b, Normal(topic)), topic.htmlUrl)
  {
    var t := b.tabs;
    var r := Collections.RemoveFirst(t, Normal(topic));
    var p := Collections.IndexOf(t, Normal(topic));
    forall k | 0 <= k < |r| && r[k].Normal? ensures r[k].topic.htmlUrl != topic.htmlUrl {
      Collections.RemoveFirstAt(t, Normal(topic), k);
      var k' := if k < p then k else k + 1;
      assert r[k] == t[k'] && k' != p;
    }
    HasOpenRepoInTabs(BrowserTabs.CloseTab(b, Normal(topic)), topic.htmlUrl);
  }

  /** Closing a repository tab that was not in the history and then
      reopening the most recent item undoes the close: the history is back
      as it was and the repository is open again, now as the last regular
      tab. The flag then names the tab list if that is non-empty. */
  lemma CloseTabThenReopen(s: AppState, topic: Topic)
    requires Inv(s) && Normal(topic) in s.browserTab.tabs
    requires topic !in s.closedTabRepos && topic !in s.closedWindowRepos
    ensures var r := ReopenTabOrWindow(CloseTab(s, topic));
            && r.closedTabRepos == s.closedTabRepos
            && r.closedWindowRepos == s.closedWindowRepos
            && r.repoWindows == s.repoWindows
            && r.browserTab.tabs == Collections.RemoveFirst(s.browserTab.tabs, Normal(topic)) + [Normal(topic)]
            && r.closedWindowType == (if s.closedTabRepos != [] then Tab
                                      else if s.closedWindowRepos != [] then Window
                                      else None)
  {
    var c := CloseTab(s, topic);
    assert c.closedTabRepos == s.closedTabRepos + [topic];
    assert (s.closedTabRepos + [topic])[..|s.closedTabRepos|] == s.closedTabRepos;
    CloseTabKeepsInv(s, topic);
    Collections.RemoveLastOfDistinct(c.closedTabRepos);
    ClosedRepoNotOpen(s.browserTab, topic);
  }

  /** The same for a floating window: closing it and reopening the most
      recent item restores the history and puts the window back, last. */
  lemma CloseWindowThenReopen(s: AppState, topic: Topic)
    requires Inv(s)
    requires topic !in s.closedTabRepos && topic !in s.closedWindowRepos
    ensures var r := ReopenTabOrWindow(CloseWindow(s, topic));
            && r.closedTabRepos == s.closedTabRepos
            && r.closedWindowRepos == s.closedWindowRepos
            && r.browserTab == s.browserTab
            && r.repoWindows == Collections.RemoveFirst(s.repoWindows, topic) + [topic]
            && r.closedWindowType == (if s.closedWindowRepos != [] then Window
                                      else if s.closedTabRepos != [] then Tab
                                      else None)
  {
    var c := CloseWindow(s, topic);
    assert (s.closedWindowRepos + [topic])[..|s.closedWindowRepos|] == s.closedWindowRepos;
    CloseWindowKeepsInv(s, topic);
    Collections.RemoveLastOfDistinct(c.closedWindowRepos);
  }
}

=== FILE: app_view_model.dfy ===
/** The desktop `AppViewModel`: a tab manager pre-loaded with two pinned
    screens and the end slot, plus a history of closed repositories.

    Closing a regular tab or a floating window records the repository in
    one of two lists, unless it is already in either. `closedWindowType`
    records which list was touched last. "Reopen most recent" pops the tail
    of the list the flag names. Every reopen then re-derives the flag from
    which lists are still non-empty. Opening a tab is deduplicated by
    `htmlUrl`.
 */
module DesktopApp {
  import Collections
  import opened GitHub
  import BrowserTabs

  /** `TabType`: a built-in screen in a pinned slot, or a repository. */
  datatype TabType = Pinned(index: int) | Normal(topic: Topic)

  /** `AppViewModel.WindowType`. */
  datatype WindowType = Tab | Window | None

  datatype AppState = AppState(
    browserTab: BrowserTabs.BrowserTab<TabType>,
    showTopicWindow: bool,
    showHistory: bool,
    repoWindows: seq<Topic>,
    closedTabRepos: seq<Topic>,
    closedWindowRepos: seq<Topic>,
    closedWindowType: WindowType)

  /** The flag names a non-empty list, and is `None` exactly when both are empty. */
  predicate FlagConsistent(s: AppState) {
    && (s.closedWindowType == None <==> s.closedTabRepos == [] && s.closedWindowRepos == [])
    && (s.closedWindowType == Tab ==> s.closedTabRepos != [])
    && (s.closedWindowType == Window ==> s.closedWindowRepos != [])
  }

  /** Each history list is duplicate-free and no repository is in both. */
  predicate HistoryDisjoint(s: AppState) {
    && Collections.Distinct(s.closedTabRepos)
    && Collections.Distinct(s.closedWindowRepos)
    && forall t :: t in s.closedTabRepos ==> t !in s.closedWindowRepos
  }

  /** Every regular tab shows a repository, and no two share an `htmlUrl`. */
  predicate OpenReposUnique(b: BrowserTabs.BrowserTab<TabType>) {
    && (forall i :: 0 <= i < |b.tabs| ==> b.tabs[i].Normal?)
    && (forall i, j :: 0 <= i < j < |b.tabs| && b.tabs[i].Normal? && b.tabs[j].Normal? ==>
          b.tabs[i].topic.htmlUrl != b.tabs[j].topic.htmlUrl)
  }

  predicate Inv(s: AppState) {
    FlagConsistent(s) && HistoryDisjoint(s) && OpenReposUnique(s.browserTab)
  }

  /** The initial state: two pinned screens, the end slot, the second screen
      selected, no history. */
  function Init(): (s: AppState)
    ensures BrowserTabs.Tabbed(s.browserTab) ==
              [BrowserTabs.PinnedTab(Pinned(0)), BrowserTabs.PinnedTab(Pinned(1)), BrowserTabs.EndTab]
    ensures s.browserTab.selected == 1
    ensures BrowserTabs.SelectedTab(s.browserTab) == Collections.Some(BrowserTabs.PinnedTab(Pinned(1)))
    ensures s.closedTabRepos == [] && s.closedWindowRepos == [] && s.closedWindowType == None
    ensures s.showTopicWindow && !s.showHistory && s.repoWindows == []
    ensures s.browserTab.refreshKey == 0
    ensures Inv(s)
  {
    var b := BrowserTabs.NewBrowserTab<TabType>(1);
    var b := BrowserTabs.NewPinnedTab(b, Pinned(0));
    var b := BrowserTabs.NewPinnedTab(b, Pinned(1));
    var b := BrowserTabs.HasEndTab(b, true);
    AppState(b, true, false, [], [], [], None)
  }

  /** `canReopen`. */
  predicate CanReopen(s: AppState) {
    s.closedTabRepos != [] || s.closedWindowRepos != []
  }

  /** Whether some regular slot of `tabbed` shows a repository with this `htmlUrl`. */
  predicate HasOpenRepo(b: BrowserTabs.BrowserTab<TabType>, htmlUrl: string) {
    var slots := BrowserTabs.Tabbed(b);
    exists i :: 0 <= i < |slots| && slots[i].Tab? && slots[i].data.Normal? && slots[i].data.topic.htmlUrl == htmlUrl
  }

  /** `newTab`: opens a regular tab unless one with the same `htmlUrl` is open. */
  function NewTab(s: AppState, topic: Topic): (r: AppState)
    ensures r.browserTab.tabs == s.browserTab.tabs + (if HasOpenRepo(s.browserTab, topic.htmlUrl) then [] else [Normal(topic)])
    ensures HasOpenRepo(r.browserTab, topic.htmlUrl)
    ensures r.browserTab.pinnedTabs == s.browserTab.pinnedTabs && r.browserTab.endTab == s.browserTab.endTab
    ensures r.browserTab.selected == s.browserTab.selected && r.browserTab.refreshKey == s.browserTab.refreshKey
    ensures r == s.(browserTab := r.browserTab)
  {
    if HasOpenRepo(s.browserTab, topic.htmlUrl) then s
    else
      var b := BrowserTabs.NewTab(s.browserTab, Normal(topic));
      assert BrowserTabs.Tabbed(b)[|b.pinnedTabs| + |s.browserTab.tabs|] == BrowserTabs.Tab(Normal(topic));
      s.(browserTab := b)
  }

  /** An open repository sits in a regular slot. */
  lemma HasOpenRepoInTabs(b: BrowserTabs.BrowserTab<TabType>, htmlUrl: string)
    ensures HasOpenRepo(b, htmlUrl) <==>
              exists k :: 0 <= k < |b.tabs| && b.tabs[k].Normal? && b.tabs[k].topic.htmlUrl == htmlUrl
  {
    var slots := BrowserTabs.Tabbed(b);
    var np := |b.pinnedTabs|;
    if HasOpenRepo(b, htmlUrl) {
      var i :| 0 <= i < |slots| && slots[i].Tab? && slots[i].data.Normal? && slots[i].data.topic.htmlUrl == htmlUrl;
      assert np <= i < np + |b.tabs| by {
        if b.endTab { assert slots[|slots| - 1] == BrowserTabs.EndTab; }
      }
      assert slots[i] == BrowserTabs.Tab(b.tabs[i - np]);
    }
    if exists k :: 0 <= k < |b.tabs| && b.tabs[k].Normal? && b.tabs[k].topic.htmlUrl == htmlUrl {
      var k :| 0 <= k < |b.tabs| && b.tabs[k].Normal? && b.tabs[k].topic.htmlUrl == htmlUrl;
      assert slots[np + k] == BrowserTabs.Tab(b.tabs[k]);
    }
  }

  /** `newTab` never opens a second tab for a repository: open regular tabs
      keep distinct `htmlUrl`s. */
  lemma NewTabKeepsReposUnique(s: AppState, topic: Topic)
    requires OpenReposUnique(s.browserTab)
    ensures OpenReposUnique(NewTab(s, topic).browserTab)
  {
    var b := s.browserTab;
    HasOpenRepoInTabs(b, topic.htmlUrl);
  }

  /** The history update shared by `closeTab` and `closeWindow`: record the
      repository only if neither list holds it yet. */
  function RecordClosed(s: AppState, topic: Topic, kind: WindowType): (r: AppState)
    requires kind != None
    ensures topic in s.closedTabRepos || topic in s.closedWindowRepos ==> r == s
    ensures topic !in s.closedTabRepos && topic !in s.closedWindowRepos ==>
              && r.closedWindowType == kind
              && (kind == Tab ==> r.closedTabRepos == s.closedTabRepos + [topic] && r.closedWindowRepos == s.closedWindowRepos)
              && (kind == Window ==> r.closedWindowRepos == s.closedWindowRepos + [topic] && r.closedTabRepos == s.closedTabRepos)
    ensures r == s.(closedWindowType := r.closedWindowType, closedTabRepos := r.closedTabRepos, closedWindowRepos := r.closedWindowRepos)
  {
    if topic !in s.closedTabRepos && topic !in s.closedWindowRepos then
      if kind == Tab then s.(closedWindowType := kind, closedTabRepos := s.closedTabRepos + [topic])
      else s.(closedWindowType := kind, closedWindowRepos := s.closedWindowRepos + [topic])
    else s
  }

  /** `closeTab`: closes the repository's regular tab, then records it in the
      tab history. */
  function CloseTab(s: AppState, topic: Topic): (r: AppState)
    ensures r.browserTab == BrowserTabs.CloseTab(s.browserTab, Normal(topic))
    ensures topic !in s.closedTabRepos && topic !in s.closedWindowRepos ==>
              r.closedTabRepos == s.closedTabRepos + [topic] && r.closedWindowType == Tab
    ensures topic in s.closedTabRepos || topic in s.closedWindowRepos ==>
              r.closedTabRepos == s.closedTabRepos && r.closedWindowType == s.closedWindowType
    ensures r.closedWindowRepos == s.closedWindowRepos && r.repoWindows == s.repoWindows
    ensures r == s.(browserTab := r.browserTab, closedTabRepos := r.closedTabRepos, closedWindowType := r.closedWindowType)
  {
    RecordClosed(s.(browserTab := BrowserTabs.CloseTab(s.browserTab, Normal(topic))), topic, Tab)
  }

  /** `closeWindow`: drops the repository's floating window, then records it
      in the window history. */
  function CloseWindow(s: AppState, topic: Topic): (r: AppState)
    ensures r.repoWindows == Collections.RemoveFirst(s.repoWindows, topic)
    ensures topic !in s.closedTabRepos && topic !in s.closedWindowRepos ==>
              r.closedWindowRepos == s.closedWindowRepos + [topic] && r.closedWindowType == Window
    ensures topic in s.closedTabRepos || topic in s.closedWindowRepos ==>
              r.closedWindowRepos == s.closedWindowRepos && r.closedWindowType == s.closedWindowType
    ensures r.closedTabRepos == s.closedTabRepos && r.browserTab == s.browserTab
    ensures r == s.(repoWindows := r.repoWindows, closedWindowRepos := r.closedWindowRepos,
                    closedWindowType := r.closedWindowType)
  {
    RecordClosed(s.(repoWindows := Collections.RemoveFirst(s.repoWindows, topic)), topic, Window)
  }

  /** The flag update that ends every reopen. */
  function RederiveFlag(closedTabs: seq<Topic>, closedWindows: seq<Topic>, flag: WindowType): (r: WindowType)
    ensures closedTabs == [] && closedWindows == [] ==> r == None
    ensures closedTabs == [] && closedWindows != [] ==> r == Window
    ensures closedTabs != [] && closedWindows == [] ==> r == Tab
    ensures closedTabs != [] && closedWindows != [] ==> r == flag
  {
    if closedWindows == [] && closedTabs == [] then None
    else if closedTabs == [] then Window
    else if closedWindows == [] then Tab
    else flag
  }

  function WithRederivedFlag(s: AppState): (r: AppState)
    ensures r == s.(closedWindowType := r.closedWindowType)
  {
    s.(closedWindowType := RederiveFlag(s.closedTabRepos, s.closedWindowRepos, s.closedWindowType))
  }

  /** `reopenTabOrWindow`: removes the tail of the list the flag names and
      reopens it as a tab or as a window, then re-derives the flag. */
  function ReopenTabOrWindow(s: AppState): (r: AppState)
    ensures s.closedWindowType == None ==>
              && r.closedTabRepos == s.closedTabRepos && r.closedWindowRepos == s.closedWindowRepos
              && r.browserTab == s.browserTab && r.repoWindows == s.repoWindows
    ensures s.closedWindowType == Tab && s.closedTabRepos != [] ==>
              var t := s.closedTabRepos[|s.closedTabRepos| - 1];
              && r.closedTabRepos == Collections.RemoveFirst(s.closedTabRepos, t)
              && r.closedWindowRepos == s.closedWindowRepos
              && r.browserTab == NewTab(s, t).browserTab
              && r.repoWindows == s.repoWindows
    ensures s.closedWindowType == Window && s.closedWindowRepos != [] ==>
              var t := s.closedWindowRepos[|s.closedWindowRepos| - 1];
              && r.closedWindowRepos == Collections.RemoveFirst(s.closedWindowRepos, t)
              && r.closedTabRepos == s.closedTabRepos
              && r.repoWindows == s.repoWindows + [t]
              && r.browserTab == s.browserTab
    ensures r.closedWindowType == RederiveFlag(r.closedTabRepos, r.closedWindowRepos, s.closedWindowType)
    ensures r.showHistory == s.showHistory && r.showTopicWindow == s.showTopicWindow
    // a flag naming an empty list pops nothing; only the flag is re-derived
    ensures (s.closedWindowType == Tab && s.closedTabRepos == []) ||
            (s.closedWindowType == Window && s.closedWindowRepos == []) ==>
              r == s.(closedWindowType := r.closedWindowType)
  {
    var s1 :=
      match s.closedWindowType
      case Tab =>
        if s.closedTabRepos == [] then s
        else
          var t := s.closedTabRepos[|s.closedTabRepos| - 1];
          NewTab(s.(closedTabRepos := Collections.RemoveFirst(s.closedTabRepos, t)), t)
      case Window =>
        if s.closedWindowRepos == [] then s
        else
          var t := s.closedWindowRepos[|s.closedWindowRepos| - 1];
          s.(closedWindowRepos := Collections.RemoveFirst(s.closedWindowRepos, t), repoWindows := s.repoWindows + [t])
      case None => s;
    WithRederivedFlag(s1)
  }

  /** `reopenTab`: takes a specific repository out of the tab history and
      opens it, then re-derives the flag. */
  function ReopenTab(s: AppState, topic: Topic): (r: AppState)
    ensures r.closedTabRepos == Collections.RemoveFirst(s.closedTabRepos, topic)
    ensures r.closedWindowRepos == s.closedWindowRepos && r.repoWindows == s.repoWindows
    ensures r.browserTab == NewTab(s, topic).browserTab
    ensures r.closedWindowType == RederiveFlag(r.closedTabRepos, r.closedWindowRepos, s.closedWindowType)
    ensures r == s.(browserTab := r.browserTab, closedTabRepos := r.closedTabRepos, closedWindowType := r.closedWindowType)
  {
    WithRederivedFlag(NewTab(s.(closedTabRepos := Collections.RemoveFirst(s.closedTabRepos, topic)), topic))
  }

  /** `reopenWindow`: takes a specific repository out of the window history
      and opens its window, then re-derives the flag. */
  function ReopenWindow(s: AppState, topic: Topic): (r: AppState)
    ensures r.closedWindowRepos == Collections.RemoveFirst(s.closedWindowRepos, topic)
    ensures r.closedTabRepos == s.closedTabRepos && r.browserTab == s.browserTab
    ensures r.repoWindows == s.repoWindows + [topic]
    ensures r.closedWindowType == RederiveFlag(r.closedTabRepos, r.closedWindowRepos, s.closedWindowType)
    ensures r == s.(repoWindows := r.repoWindows, closedWindowRepos := r.closedWindowRepos,
                    closedWindowType := r.closedWindowType)
  {
    WithRederivedFlag(s.(closedWindowRepos := Collections.RemoveFirst(s.closedWindowRepos, topic),
                         repoWindows := s.repoWindows + [topic]))
  }

  /** `nextTab`, `previousTab` and `selectTab` leave the history view. */
  function NextTab(s: AppState): (r: AppState)
    ensures !r.showHistory && r.browserTab == BrowserTabs.NextTab(s.browserTab)
    ensures r == s.(showHistory := false, browserTab := r.browserTab)
  {
    s.(showHistory := false, browserTab := BrowserTabs.NextTab(s.browserTab))
  }

  /** Stepping back from a slot of the cycle is undone by stepping forward. */
  function PreviousTab(s: AppState): (r: AppState)
    ensures !r.showHistory && r.browserTab == BrowserTabs.PreviousTab(s.browserTab)
    ensures r == s.(showHistory := false, browserTab := r.browserTab)
    ensures 0 <= s.browserTab.selected < BrowserTabs.CycleLength(s.browserTab) ==>
              NextTab(r) == s.(showHistory := false)
  {
    assert 0 <= s.browserTab.selected < BrowserTabs.CycleLength(s.browserTab) ==>
             BrowserTabs.NextTab(BrowserTabs.PreviousTab(s.browserTab)) == s.browserTab by {
      if 0 <= s.browserTab.selected < BrowserTabs.CycleLength(s.browserTab) {
        BrowserTabs.PreviousUndoesNext(s.browserTab);
      }
    }
    s.(showHistory := false, browserTab := BrowserTabs.PreviousTab(s.browserTab))
  }

  function SelectTab(s: AppState, index: int): (r: AppState)
    ensures !r.showHistory && r.browserTab.selected == index
    ensures r == s.(showHistory := false, browserTab := s.browserTab.(selected := index))
  {
    s.(showHistory := false, browserTab := BrowserTabs.SelectTab(s.browserTab, index))
  }

  /** The `selected` property's setter: selects without touching `showHistory`. */
  function SetSelected(s: AppState, index: int): (r: AppState)
    ensures r == s.(browserTab := s.browserTab.(selected := index))
  {
    s.(browserTab := BrowserTabs.SelectTab(s.browserTab, index))
  }

  /** `openHistory`: shows the history view and selects the last slot. */
  function OpenHistory(s: AppState): (r: AppState)
    ensures r.showHistory
    ensures r.browserTab.selected == |BrowserTabs.Tabbed(s.browserTab)| - 1
    ensures s.browserTab.endTab ==> BrowserTabs.SelectedTab(r.browserTab) == Collections.Some(BrowserTabs.EndTab)
    ensures r == s.(showHistory := true,
                    browserTab := s.browserTab.(selected := |BrowserTabs.Tabbed(s.browserTab)| - 1))
  {
    s.(showHistory := true,
       browserTab := BrowserTabs.SelectTab(s.browserTab, |BrowserTabs.Tabbed(s.browserTab)| - 1))
  }

  /** `closeSelectedTab`: closes the selected slot only when it is a regular
      tab, and records no history. */
  function CloseSelectedTab(s: AppState): (r: AppState)
    ensures r.closedTabRepos == s.closedTabRepos && r.closedWindowRepos == s.closedWindowRepos
    ensures r.closedWindowType == s.closedWindowType
    ensures var slot := BrowserTabs.SelectedTab(s.browserTab);
            if slot.Some? && slot.value.Tab?
            then r == s.(browserTab := BrowserTabs.CloseTab(s.browserTab, slot.value.data))
            else r == s
  {
    var slot := BrowserTabs.SelectedTab(s.browserTab);
    if slot.Some? && slot.value.Tab? then s.(browserTab := BrowserTabs.CloseTab(s.browserTab, slot.value.data))
    else s
  }

  /** `repoWindows.add`, which the history screen calls directly. */
  function OpenWindow(s: AppState, topic: Topic): (r: AppState)
    ensures r == s.(repoWindows := s.repoWindows + [topic])
  {
    s.(repoWindows := s.repoWindows + [topic])
  }
}

=== FILE: browser_tab.dfy ===
/** `BrowserTabHandler` / `BrowserTab`: an ordered collection of slots,
    pinned tabs, then regular tabs, then an optional end slot, with an integer
    `selected` position and a `refreshKey` counter.

    The closing rules renumber `selected` asymmetrically:
    - closing a slot before the selection shifts it left;
    - closing the selected slot keeps the position when a regular slot still
      follows it, and forces a re-render by bumping `refreshKey`;
    - closing a slot after the selection changes nothing.

    `nextTab` and `previousTab` cycle over the pinned and regular slots only.
    The lists are kept as sequences of payloads. The slot wrappers of the
    `Tabs` union are rebuilt by `Tabbed`. Kotlin's `Tabs.Tab` and
    `Tabs.PinnedTab` are data classes, so comparing wrappers is comparing
    payloads.
 */
module BrowserTabs {
  import opened Collections

  /** The sealed `Tabs` union. */
  datatype Slot<T> = PinnedTab(data: T) | Tab(data: T) | EndTab
  {
    /** `Tab.pin()`. */
    function Pin(): (p: Slot<T>)
      requires Tab?
      ensures p.PinnedTab? && p.data == data
    {
      PinnedTab(data)
    }

    /** `PinnedTab.unpin()`. */
    function Unpin(): (t: Slot<T>)
      requires PinnedTab?
      ensures t.Tab? && t.data == data
    {
      Tab(data)
    }
  }

  /** Pinning and unpinning a slot are inverse conversions. */
  lemma PinUnpinRoundTrip<T>(d: T)
    ensures Tab(d).Pin().Unpin() == Tab(d)
    ensures PinnedTab(d).Unpin().Pin() == PinnedTab(d)
  {
  }

  datatype BrowserTab<T> = BrowserTab(
    pinnedTabs: seq<T>,
    tabs: seq<T>,
    endTab: bool,
    selected: int,
    refreshKey: int)

  /** `BrowserTab(initialTab)`: no slots, `refreshKey` at 0. */
  function NewBrowserTab<T>(initialTab: int): (b: BrowserTab<T>)
    ensures |Tabbed(b)| == 0 && b.selected == initialTab && b.refreshKey == 0
  {
    BrowserTab([], [], false, initialTab, 0)
  }

  /** The number of slots `nextTab` and `previousTab` cycle over: the pinned
      and regular slots, without the end slot. */
  function CycleLength<T>(b: BrowserTab<T>): nat {
    |b.tabs| + |b.pinnedTabs|
  }

  /** `tabbed`: `pinnedTabs + tabs + listOfNotNull(endTabs)`. */
  function Tabbed<T>(b: BrowserTab<T>): (r: seq<Slot<T>>)
    ensures |r| == |b.pinnedTabs| + |b.tabs| + (if b.endTab then 1 else 0)
    ensures forall i :: 0 <= i < |b.pinnedTabs| ==> r[i] == PinnedTab(b.pinnedTabs[i])
    ensures forall i :: |b.pinnedTabs| <= i < |b.pinnedTabs| + |b.tabs| ==> r[i] == Tab(b.tabs[i - |b.pinnedTabs|])
    ensures b.endTab ==> r[|r| - 1] == EndTab
  {
    var pinned := seq(|b.pinnedTabs|, i requires 0 <= i < |b.pinnedTabs| => PinnedTab(b.pinnedTabs[i]));
    var regular := seq(|b.tabs|, i requires 0 <= i < |b.tabs| => Tab(b.tabs[i]));
    pinned + regular + (if b.endTab then [EndTab] else [])
  }

  /** `selectedTab()`: the slot at `selected`, or `None` outside the slots. */
  function SelectedTab<T>(b: BrowserTab<T>): (r: Option<Slot<T>>)
    ensures r.Some? <==> 0 <= b.selected < |Tabbed(b)|
    ensures r.Some? ==> r.value == Tabbed(b)[b.selected]
    ensures 0 <= b.selected < |b.pinnedTabs| ==> r == Some(PinnedTab(b.pinnedTabs[b.selected]))
    ensures |b.pinnedTabs| <= b.selected < CycleLength(b) ==>
              r == Some(Tab(b.tabs[b.selected - |b.pinnedTabs|]))
    ensures b.endTab && b.selected == CycleLength(b) ==> r == Some(EndTab)
  {
    var slots := Tabbed(b);
    if 0 <= b.selected < |slots| then Some(slots[b.selected]) else None
  }

  /** `refreshTab()` of `BrowserTab`. */
  function RefreshTab<T>(b: BrowserTab<T>): (r: BrowserTab<T>)
    ensures Tabbed(r) == Tabbed(b) && r.selected == b.selected
    ensures r.refreshKey == b.refreshKey + 1
  {
    b.(refreshKey := b.refreshKey + 1)
  }

  /** `newPinnedTab`: the new pinned slot goes after the other pinned slots,
      so it comes before every regular slot. `selected` is not adjusted. */
  function NewPinnedTab<T>(b: BrowserTab<T>, x: T): (r: BrowserTab<T>)
    ensures Tabbed(r) == Tabbed(b)[..|b.pinnedTabs|] + [PinnedTab(x)] + Tabbed(b)[|b.pinnedTabs|..]
    ensures r.selected == b.selected && r.refreshKey == b.refreshKey
  {
    var r := b.(pinnedTabs := b.pinnedTabs + [x]);
    assert Tabbed(r) == Tabbed(b)[..|b.pinnedTabs|] + [PinnedTab(x)] + Tabbed(b)[|b.pinnedTabs|..];
    r
  }

  /** `newTab`: the new regular slot goes after the other regular slots and
      before the end slot. `selected` is not adjusted. */
  function NewTab<T>(b: BrowserTab<T>, x: T): (r: BrowserTab<T>)
    ensures Tabbed(r) == Tabbed(b)[..CycleLength(b)] + [Tab(x)] + Tabbed(b)[CycleLength(b)..]
    ensures r.selected == b.selected && r.refreshKey == b.refreshKey
    ensures r.pinnedTabs == b.pinnedTabs && r.endTab == b.endTab
  {
    var r := b.(tabs := b.tabs + [x]);
    assert Tabbed(r) == Tabbed(b)[..CycleLength(b)] + [Tab(x)] + Tabbed(b)[CycleLength(b)..];
    r
  }

  /** `hasEndTab`: sets or clears the trailing slot and nothing else. */
  function HasEndTab<T>(b: BrowserTab<T>, present: bool): (r: BrowserTab<T>)
    ensures Tabbed(r) == Tabbed(b)[..CycleLength(b)] + (if present then [EndTab] else [])
    ensures r.selected == b.selected && r.refreshKey == b.refreshKey
  {
    var r := b.(endTab := present);
    assert Tabbed(r) == Tabbed(b)[..CycleLength(b)] + (if present then [EndTab] else []);
    r
  }

  /** `selectTab`: sets `selected`, with no clamping. */
  function SelectTab<T>(b: BrowserTab<T>, index: int): (r: BrowserTab<T>)
    ensures r.selected == index && Tabbed(r) == Tabbed(b) && r.refreshKey == b.refreshKey
    ensures SelectedTab(r).Some? <==> 0 <= index < |Tabbed(b)|
  {
    b.(selected := index)
  }

  /** `closePinnedTab`. The position is looked up in `pinnedTabs` alone,
      which matches the position among all slots because pinned slots come
      first. Closing the selected pinned slot always takes the refresh
      branch, since that slot's position is below `pinnedTabs.size`. */
  function ClosePinnedTab<T(==)>(b: BrowserTab<T>, x: T): (r: BrowserTab<T>)
    ensures r.tabs == b.tabs && r.endTab == b.endTab
    ensures r.pinnedTabs == RemoveFirst(b.pinnedTabs, x)
    ensures multiset(r.pinnedTabs) == multiset(b.pinnedTabs) - multiset{x}
    ensures x in b.pinnedTabs ==> |r.pinnedTabs| == |b.pinnedTabs| - 1
    ensures x in b.pinnedTabs && IndexOf(b.pinnedTabs, x) < b.selected ==>
              r.selected == b.selected - 1 && r.refreshKey == b.refreshKey
    ensures x in b.pinnedTabs && IndexOf(b.pinnedTabs, x) == b.selected ==>
              r.selected == b.selected && r.refreshKey == b.refreshKey + 1
    ensures x in b.pinnedTabs && IndexOf(b.pinnedTabs, x) > b.selected ==>
              r.selected == b.selected && r.refreshKey == b.refreshKey
    // a missing slot: the lists stay, but `indexOf` answers -1 and the
    // selection still moves
    ensures x !in b.pinnedTabs ==> r.pinnedTabs == b.pinnedTabs
    ensures x !in b.pinnedTabs && b.selected >= 0 ==>
              r.selected == b.selected - 1 && r.refreshKey == b.refreshKey
    ensures x !in b.pinnedTabs && b.selected == -1 ==> r.selected == -1 && r.refreshKey == b.refreshKey + 1
    ensures x !in b.pinnedTabs && b.selected < -1 ==> r.selected == b.selected && r.refreshKey == b.refreshKey
  {
    var index := IndexOf(b.pinnedTabs, x);
    var b1 :=
      if index < b.selected then b.(selected := b.selected - 1)
      else if index == b.selected then
        (if |b.pinnedTabs| > b.selected then RefreshTab(b) else b.(selected := b.selected - 1))
      else b;
    RemoveFirstMultiset(b.pinnedTabs, x);
    b1.(pinnedTabs := RemoveFirst(b.pinnedTabs, x))
  }

  /** Where `closeTab` finds a regular slot: after all pinned slots, or -1. */
  lemma IndexOfTabInTabbed<T>(b: BrowserTab<T>, x: T)
    ensures IndexOf(Tabbed(b), Tab(x)) == if x in b.tabs then |b.pinnedTabs| + IndexOf(b.tabs, x) else -1
  {
    var slots := Tabbed(b);
    var p := |b.pinnedTabs|;
    if x in b.tabs {
      var q := IndexOf(b.tabs, x);
      assert Tab(x) !in slots[..p + q] by {
        forall i | 0 <= i < p + q ensures slots[i] != Tab(x) {
          if i >= p {
            assert b.tabs[..q][i - p] == b.tabs[i - p];
          }
        }
        assert forall i :: 0 <= i < p + q ==> slots[..p + q][i] == slots[i];
      }
      IndexOfUnique(slots, Tab(x), p + q);
    } else {
      assert Tab(x) !in slots by {
        forall i | 0 <= i < |slots| ensures slots[i] != Tab(x) {
          if p <= i < p + |b.tabs| {
            assert slots[i] == Tab(b.tabs[i - p]);
          }
        }
      }
    }
  }

  /** The position among all slots of the first regular slot holding `x`. */
  function TabPosition<T(==)>(b: BrowserTab<T>, x: T): int
    requires x in b.tabs
  {
    |b.pinnedTabs| + IndexOf(b.tabs, x)
  }

  /** `closeTab`: renumber `selected` against the slot's position before the
      removal, then drop the first regular slot holding `x`. The source's
      final `else -> selected = 0` branch follows three exhaustive integer
      comparisons and cannot be taken, so it is not modelled. */
  function CloseTab<T(==)>(b: BrowserTab<T>, x: T): (r: BrowserTab<T>)
    ensures r.pinnedTabs == b.pinnedTabs && r.endTab == b.endTab
    ensures r.tabs == RemoveFirst(b.tabs, x)
    ensures multiset(r.tabs) == multiset(b.tabs) - multiset{x}
    ensures x in b.tabs && TabPosition(b, x) < b.selected ==>
              r.selected == b.selected - 1 && r.refreshKey == b.refreshKey
    ensures x in b.tabs && TabPosition(b, x) == b.selected ==>
              if CycleLength(b) - 1 > b.selected
              then r.selected == b.selected && r.refreshKey == b.refreshKey + 1
              else r.selected == b.selected - 1 && r.refreshKey == b.refreshKey
    ensures x in b.tabs && TabPosition(b, x) > b.selected ==>
              r.selected == b.selected && r.refreshKey == b.refreshKey
    // a missing slot: the lists stay, but `indexOf` answers -1 and the
    // selection still moves
    ensures x !in b.tabs ==> r.tabs == b.tabs
    ensures x !in b.tabs && b.selected >= 0 ==>
              r.selected == b.selected - 1 && r.refreshKey == b.refreshKey
    // ... and with `selected` at -1 it is taken for the selected slot: the
    // refresh branch when some pinned or regular slot exists, else one step back
    ensures x !in b.tabs && b.selected == -1 ==>
              if CycleLength(b) > 0
              then r.selected == -1 && r.refreshKey == b.refreshKey + 1
              else r.selected == -2 && r.refreshKey == b.refreshKey
    ensures x !in b.tabs && b.selected < -1 ==> r.selected == b.selected && r.refreshKey == b.refreshKey
  {
    // `tabbed.indexOf(tab)`, computed from the regions (IndexOfTabInTabbed)
    var index := if x in b.tabs then TabPosition(b, x) else -1;
    var b1 :=
      if index < b.selected then b.(selected := b.selected - 1)
      else if index == b.selected then
        (if CycleLength(b) - 1 > b.selected then RefreshTab(b) else b.(selected := b.selected - 1))
      else b;
    RemoveFirstMultiset(b.tabs, x);
    b1.(tabs := RemoveFirst(b.tabs, x))
  }

  /** `closeTab` of a present slot removes exactly that slot from `tabbed`. */
  lemma CloseTabRemovesSlot<T>(b: BrowserTab<T>, x: T)
    requires x in b.tabs
    ensures var p := TabPosition(b, x);
            Tabbed(CloseTab(b, x)) == Tabbed(b)[..p] + Tabbed(b)[p + 1..]
  {
    var c := CloseTab(b, x);
    CutRegularSlot(b, c, IndexOf(b.tabs, x));
  }

  /** Cutting regular position `q` out of `tabs` cuts slot `|pinnedTabs| + q`
      out of `tabbed`. */
  lemma CutRegularSlot<T>(b: BrowserTab<T>, c: BrowserTab<T>, q: int)
    requires 0 <= q < |b.tabs|
    requires c.pinnedTabs == b.pinnedTabs && c.endTab == b.endTab
    requires c.tabs == b.tabs[..q] + b.tabs[q + 1..]
    ensures Tabbed(c) == Tabbed(b)[..|b.pinnedTabs| + q] + Tabbed(b)[|b.pinnedTabs| + q + 1..]
  {
    var p := |b.pinnedTabs| + q;
    var expected := Tabbed(b)[..p] + Tabbed(b)[p + 1..];
    forall i | 0 <= i < |Tabbed(c)| ensures Tabbed(c)[i] == expected[i] {
      CutAt(Tabbed(b), p, i);
      CutRegularSlotAt(b, c, q, i);
    }
  }

  /** Slot by slot: after the cut, slot `i` is the old slot `i` before the
      cut point and the old slot `i + 1` from it on. */
  lemma CutRegularSlotAt<T>(b: BrowserTab<T>, c: BrowserTab<T>, q: int, i: int)
    requires 0 <= q < |b.tabs|
    requires c.pinnedTabs == b.pinnedTabs && c.endTab == b.endTab
    requires c.tabs == b.tabs[..q] + b.tabs[q + 1..]
    requires 0 <= i < |Tabbed(c)|
    ensures Tabbed(c)[i] == Tabbed(b)[if i < |b.pinnedTabs| + q then i else i + 1]
  {
    var np := |b.pinnedTabs|;
    if np <= i < np + |c.tabs| {
      CutAt(b.tabs, q, i - np);
    }
  }

  /** Closing a slot before the selection keeps the same slot selected. */
  lemma CloseBeforeSelectedKeepsSelectedTab<T>(b: BrowserTab<T>, x: T)
    requires x in b.tabs && TabPosition(b, x) < b.selected
    ensures SelectedTab(CloseTab(b, x)) == SelectedTab(b)
  {
    var p := TabPosition(b, x);
    var before, after := Tabbed(b), Tabbed(CloseTab(b, x));
    CloseTabRemovesSlot(b, x);
    if b.selected < |before| {
      assert after[b.selected - 1] == before[b.selected];
    }
  }

  /** Closing a slot after the selection keeps the same slot selected. */
  lemma CloseAfterSelectedKeepsSelectedTab<T>(b: BrowserTab<T>, x: T)
    requires x in b.tabs && 0 <= b.selected < TabPosition(b, x)
    ensures SelectedTab(CloseTab(b, x)) == SelectedTab(b)
  {
    CloseTabRemovesSlot(b, x);
  }

  /** Closing the selected slot while a regular slot follows it keeps the
      position, which now shows the following slot, and asks for a refresh. */
  lemma CloseSelectedShowsFollowingSlot<T>(b: BrowserTab<T>, x: T)
    requires x in b.tabs && TabPosition(b, x) == b.selected && b.selected < CycleLength(b) - 1
    ensures SelectedTab(CloseTab(b, x)) == Some(Tabbed(b)[b.selected + 1])
    ensures CloseTab(b, x).refreshKey == b.refreshKey + 1
  {
    CloseTabRemovesSlot(b, x);
  }

  /** With at least one pinned slot, closing a present regular slot keeps an
      in-range selection in range. Without pinned
      slots this fails: closing the only regular slot while it is selected
      moves the selection to -1. */
  lemma CloseTabKeepsSelectionInRange<T>(b: BrowserTab<T>, x: T)
    requires |b.pinnedTabs| >= 1 && x in b.tabs
    requires 0 <= b.selected < |Tabbed(b)|
    ensures 0 <= CloseTab(b, x).selected < |Tabbed(CloseTab(b, x))|
  {
  }

  /** Closing the selected slot when it is the last regular slot steps back:
      the slot before it is shown, or nothing when it was the only slot of
      the cycle. No refresh is asked for. */
  lemma CloseLastSelectedShowsPreviousSlot<T>(b: BrowserTab<T>, x: T)
    requires x in b.tabs && TabPosition(b, x) == b.selected && b.selected == CycleLength(b) - 1
    ensures SelectedTab(CloseTab(b, x)) == if b.selected >= 1 then Some(Tabbed(b)[b.selected - 1]) else None
    ensures CloseTab(b, x).refreshKey == b.refreshKey
  {
    var c := CloseTab(b, x);
    assert c.selected == b.selected - 1;
    if b.selected >= 1 {
      CutRegularSlotAt(b, c, IndexOf(b.tabs, x), b.selected - 1);
    }
  }

  /** `closePinnedTab` of a present slot removes exactly that slot from
      `tabbed`. */
  lemma ClosePinnedTabRemovesSlot<T>(b: BrowserTab<T>, x: T)
    requires x in b.pinnedTabs
    ensures var q := IndexOf(b.pinnedTabs, x);
            Tabbed(ClosePinnedTab(b, x)) == Tabbed(b)[..q] + Tabbed(b)[q + 1..]
  {
    var c := ClosePinnedTab(b, x);
    var q := IndexOf(b.pinnedTabs, x);
    var expected := Tabbed(b)[..q] + Tabbed(b)[q + 1..];
    forall i | 0 <= i < |Tabbed(c)| ensures Tabbed(c)[i] == expected[i] {
      CutAt(Tabbed(b), q, i);
      CutPinnedSlotAt(b, c, q, i);
    }
  }

  /** Slot by slot: cutting pinned position `q` shifts every later slot left. */
  lemma CutPinnedSlotAt<T>(b: BrowserTab<T>, c: BrowserTab<T>, q: int, i: int)
    requires 0 <= q < |b.pinnedTabs|
    requires c.tabs == b.tabs && c.endTab == b.endTab
    requires c.pinnedTabs == b.pinnedTabs[..q] + b.pinnedTabs[q + 1..]
    requires 0 <= i < |Tabbed(c)|
    ensures Tabbed(c)[i] == Tabbed(b)[if i < q then i else i + 1]
  {
    if i < |c.pinnedTabs| {
      CutAt(b.pinnedTabs, q, i);
    }
  }

  /** Closing a pinned slot before the selection keeps the same slot selected. */
  lemma ClosePinnedBeforeSelectedKeepsSelectedTab<T>(b: BrowserTab<T>, x: T)
    requires x in b.pinnedTabs && IndexOf(b.pinnedTabs, x) < b.selected
    ensures SelectedTab(ClosePinnedTab(b, x)) == SelectedTab(b)
  {
    var c := ClosePinnedTab(b, x);
    PinnedCutBeforeSelection(b, c, IndexOf(b.pinnedTabs, x));
  }

  /** The renumbering behind the lemma above: with pinned position `q` cut
      out before the selection, `selected - 1` shows what `selected` showed. */
  lemma PinnedCutBeforeSelection<T>(b: BrowserTab<T>, c: BrowserTab<T>, q: int)
    requires 0 <= q < |b.pinnedTabs| && q < b.selected
    requires c.tabs == b.tabs && c.endTab == b.endTab && c.selected == b.selected - 1
    requires c.pinnedTabs == b.pinnedTabs[..q] + b.pinnedTabs[q + 1..]
    ensures SelectedTab(c) == SelectedTab(b)
  {
    if b.selected < |Tabbed(b)| {
      CutPinnedSlotAt(b, c, q, b.selected - 1);
    }
  }

  /** Closing a pinned slot after the selection keeps the same slot selected. */
  lemma ClosePinnedAfterSelectedKeepsSelectedTab<T>(b: BrowserTab<T>, x: T)
    requires x in b.pinnedTabs && b.selected < IndexOf(b.pinnedTabs, x)
    ensures SelectedTab(ClosePinnedTab(b, x)) == SelectedTab(b)
  {
    var c := ClosePinnedTab(b, x);
    assert c.selected == b.selected && |Tabbed(c)| == |Tabbed(b)| - 1;
    if 0 <= b.selected {
      CutPinnedSlotAt(b, c, IndexOf(b.pinnedTabs, x), b.selected);
    }
  }

  /** Closing the selected pinned slot keeps the position, which now shows
      the slot that followed it (if any), and asks for a refresh. */
  lemma ClosePinnedSelectedShowsFollowingSlot<T>(b: BrowserTab<T>, x: T)
    requires x in b.pinnedTabs && IndexOf(b.pinnedTabs, x) == b.selected
    ensures SelectedTab(ClosePinnedTab(b, x)) ==
              if b.selected + 1 < |Tabbed(b)| then Some(Tabbed(b)[b.selected + 1]) else None
    ensures ClosePinnedTab(b, x).refreshKey == b.refreshKey + 1
  {
    var c := ClosePinnedTab(b, x);
    assert c.selected == b.selected;
    if b.selected + 1 < |Tabbed(b)| {
      CutPinnedSlotAt(b, c, b.selected, b.selected);
    }
  }

  /** `nextTab`: one step forward, wrapping from the last regular slot to 0. */
  function NextTab<T>(b: BrowserTab<T>): (r: BrowserTab<T>)
    ensures r == b.(selected := r.selected)
    ensures 0 <= b.selected < CycleLength(b) ==>
              0 <= r.selected < CycleLength(b) && r.selected == (b.selected + 1) % CycleLength(b)
    // off the cycle (the end slot, or any other position) it only counts up
    ensures b.selected != CycleLength(b) - 1 ==> r.selected == b.selected + 1
    ensures b.selected == CycleLength(b) - 1 ==> r.selected == 0
  {
    var n := CycleLength(b);
    assert 0 <= b.selected < n ==> (if b.selected == n - 1 then 0 else b.selected + 1) == (b.selected + 1) % n by {
      if 0 <= b.selected < n {
        if b.selected == n - 1 { ModShift(0, n); ModBelow(0, n); } else { ModBelow(b.selected + 1, n); }
      }
    }
    if b.selected == n - 1 then b.(selected := 0) else b.(selected := b.selected + 1)
  }

  /** `previousTab`: one step back, wrapping from 0 to the last regular slot. */
  function PreviousTab<T>(b: BrowserTab<T>): (r: BrowserTab<T>)
    ensures r == b.(selected := r.selected)
    ensures 0 <= b.selected < CycleLength(b) ==>
              0 <= r.selected < CycleLength(b) && r.selected == (b.selected - 1) % CycleLength(b)
    // off the cycle it only counts down; from 0 it jumps to the last cycle slot
    ensures b.selected != 0 ==> r.selected == b.selected - 1
    ensures b.selected == 0 ==> r.selected == CycleLength(b) - 1
  {
    var n := CycleLength(b);
    assert 0 <= b.selected < n ==> (if b.selected == 0 then n - 1 else b.selected - 1) == (b.selected - 1) % n by {
      if 0 <= b.selected < n {
        if b.selected == 0 { ModShift(n - 1, n); ModBelow(n - 1, n); } else { ModBelow(b.selected - 1, n); }
      }
    }
    if b.selected == 0 then b.(selected := n - 1) else b.(selected := b.selected - 1)
  }

  /** `k` calls of `nextTab`. */
  function NextTabs<T>(b: BrowserTab<T>, k: nat): BrowserTab<T>
    decreases k
  {
    if k == 0 then b else NextTab(NextTabs(b, k - 1))
  }

  /** `k` calls of `nextTab` advance the selection by `k` modulo the cycle. */
  lemma {:induction false} NextTabsAdvance<T>(b: BrowserTab<T>, k: nat)
    requires 0 <= b.selected < CycleLength(b)
    ensures NextTabs(b, k) == b.(selected := (b.selected + k) % CycleLength(b))
    decreases k
  {
    if k > 0 {
      NextTabsAdvance(b, k - 1);
      var n := CycleLength(b);
      var s := (b.selected + k - 1) % n;
      assert (s + 1) % n == (b.selected + k) % n by {
        ModSuccessor(b.selected + k - 1, n);
      }
    }
  }

  lemma ModSuccessor(a: int, n: int)
    requires n > 0
    ensures (a % n + 1) % n == (a + 1) % n
  {
    var q, r := a / n, a % n;
    if r + 1 < n {
      ModBelow(r + 1, n);
      ModUnique(a + 1, n, q, r + 1);
    } else {
      ModUnique(r + 1, n, 1, 0);
      ModUnique(a + 1, n, q + 1, 0);
    }
  }

  lemma ModBelow(a: int, n: int)
    requires 0 <= a < n
    ensures a % n == a
  {
    ModUnique(a, n, 0, a);
  }

  lemma ModShift(a: int, n: int)
    requires n > 0
    ensures (a + n) % n == a % n
    ensures (a - n) % n == a % n
  {
    var q, r := a / n, a % n;
    assert a == q * n + r;
    assert a + n == (q + 1) * n + r;
    assert a - n == (q - 1) * n + r;
    ModUnique(a + n, n, q + 1, r);
    ModUnique(a - n, n, q - 1, r);
  }

  /** Euclidean division has one remainder. */
  lemma ModUnique(a: int, n: int, q: int, r: int)
    requires n > 0 && 0 <= r < n && a == q * n + r
    ensures a % n == r
  {
    var q', r' := a / n, a % n;
    assert a == q' * n + r';
    assert (q - q') * n == r' - r;
    MultipleBounds(q - q', n);
  }

  /** A non-zero multiple of `n` is at least `n` away from 0. */
  lemma MultipleBounds(k: int, n: int)
    requires n > 0
    ensures k >= 1 ==> k * n >= n
    ensures k <= -1 ==> k * n <= -n
  {
    if k >= 1 {
      assert (k - 1) * n >= 0;
    } else if k <= -1 {
      assert (-k - 1) * n >= 0;
    }
  }

  /** As many `nextTab` calls as there are pinned and regular slots bring the
      selection back where it started. */
  lemma NextTabsCycle<T>(b: BrowserTab<T>)
    requires 0 <= b.selected < CycleLength(b)
    ensures NextTabs(b, CycleLength(b)) == b
  {
    NextTabsAdvance(b, CycleLength(b));
    var n := CycleLength(b);
    ModShift(b.selected, n);
    ModBelow(b.selected, n);
  }

  /** `previousTab` undoes `nextTab`, and the other way round. */
  lemma PreviousUndoesNext<T>(b: BrowserTab<T>)
    requires 0 <= b.selected < CycleLength(b)
    ensures PreviousTab(NextTab(b)) == b
    ensures NextTab(PreviousTab(b)) == b
  {
  }

  /** `pinTab`: drops the first regular slot holding `x` and appends a pinned
      one. The pinned slot is appended even when `x` was not a regular slot.
      `selected` is not adjusted. */
  function PinTab<T(==)>(b: BrowserTab<T>, x: T): (r: BrowserTab<T>)
    ensures r.pinnedTabs == b.pinnedTabs + [x]
    ensures r.tabs == RemoveFirst(b.tabs, x)
    ensures multiset(r.tabs) == multiset(b.tabs) - multiset{x}
    ensures x !in b.tabs ==> r.tabs == b.tabs
    ensures x in b.tabs ==> multiset(r.pinnedTabs + r.tabs) == multiset(b.pinnedTabs + b.tabs)
    ensures r.selected == b.selected && r.refreshKey == b.refreshKey && r.endTab == b.endTab
  {
    RemoveFirstMultiset(b.tabs, x);
    b.(tabs := RemoveFirst(b.tabs, x), pinnedTabs := b.pinnedTabs + [x])
  }

  /** `unpin`: drops the first pinned slot holding `x` and appends a regular
      one. The regular slot is appended even when `x` was not pinned.
      `selected` is not adjusted. */
  function UnpinTab<T(==)>(b: BrowserTab<T>, x: T): (r: BrowserTab<T>)
    ensures r.tabs == b.tabs + [x]
    ensures r.pinnedTabs == RemoveFirst(b.pinnedTabs, x)
    ensures multiset(r.pinnedTabs) == multiset(b.pinnedTabs) - multiset{x}
    ensures x !in b.pinnedTabs ==> r.pinnedTabs == b.pinnedTabs
    ensures x in b.pinnedTabs ==> multiset(r.pinnedTabs + r.tabs) == multiset(b.pinnedTabs + b.tabs)
    ensures r.selected == b.selected && r.refreshKey == b.refreshKey && r.endTab == b.endTab
  {
    RemoveFirstMultiset(b.pinnedTabs, x);
    b.(pinnedTabs := RemoveFirst(b.pinnedTabs, x), tabs := b.tabs + [x])
  }

  /** Pinning a freshly opened regular slot and unpinning it again restores
      the state, provided the payload was neither pinned nor open before. */
  lemma PinThenUnpinRestoresNewTab<T>(b: BrowserTab<T>, x: T)
    requires x !in b.pinnedTabs && x !in b.tabs
    ensures UnpinTab(PinTab(NewTab(b, x), x), x) == NewTab(b, x)
  {
    var grown := NewTab(b, x);
    IndexOfUnique(grown.tabs, x, |b.tabs|);
    assert RemoveFirst(grown.tabs, x) == b.tabs;
    IndexOfUnique(b.pinnedTabs + [x], x, |b.pinnedTabs|);
    assert RemoveFirst(b.pinnedTabs + [x], x) == b.pinnedTabs;
  }
}

=== FILE: cache.dfy ===
/** `ExpirableLRUCache`: a cache wrapped around a plain map delegate that
    combines two eviction policies.

    - An access-ordered key index (`keyMap`, a `LinkedHashMap` built with
      `accessOrder = true`) bounded by `minimalSize`. When a new key pushes it
      past the bound, its eldest key is dropped and that key is also removed
      from the delegate.
    - A coarse whole-cache timer. `get`, `set`, `remove` and `size` first check
      whether `flushInterval` has elapsed since the last flush. If so, they
      clear the DELEGATE and restart the timer. The key index is left alone.

    The key index is a sequence, eldest first. The clock is an explicit `now`
    in nanoseconds (the source reads `System.nanoTime`). The flush interval is
    configured in milliseconds, as in the source. Because `remove` and the
    timer shrink only the delegate, the invariant is "delegate keys are a
    subset of tracked keys", not equality.
 */
module LruCache {
  import opened Collections

  /** `TimeUnit.MILLISECONDS.toNanos` factor. */
  const NanosPerMilli: int := 1_000_000
  /** `DEFAULT_SIZE` of the companion object. */
  const DefaultMinimalSize: nat := 100
  /** Default `flushInterval`: one minute, in milliseconds. */
  const DefaultFlushIntervalMillis: int := 60_000

  datatype Cache<K(==), V> = Cache(
    minimalSize: nat,
    flushIntervalMillis: int,
    delegate: map<K, V>,
    keyMap: seq<K>,        // access order: eldest first, most recently used last
    lastFlushTime: int)

  /** The state every cache built on an empty delegate keeps. */
  predicate Valid<K(==), V>(c: Cache<K, V>) {
    && Distinct(c.keyMap)
    && |c.keyMap| <= c.minimalSize
    && forall k :: k in c.delegate ==> k in c.keyMap
  }

  /** The constructor: nothing tracked, and the timer starts at `now`. */
  function New<K(==), V>(minimalSize: nat, flushIntervalMillis: int, delegate: map<K, V>, now: int): (c: Cache<K, V>)
    ensures c.minimalSize == minimalSize && c.flushIntervalMillis == flushIntervalMillis
    ensures c.keyMap == [] && c.delegate == delegate && c.lastFlushTime == now
    ensures Valid(c) <==> |delegate| == 0
  {
    Cache(minimalSize, flushIntervalMillis, delegate, [], now)
  }

  /** The constructor with its default arguments: 100 entries, and a flush
      interval of one minute. */
  function NewWithDefaults<K(==), V>(delegate: map<K, V>, now: int): (c: Cache<K, V>)
    ensures c.minimalSize == 100 && c.flushIntervalMillis == 60_000
    ensures c.keyMap == [] && c.delegate == delegate && c.lastFlushTime == now
    ensures Valid(c) <==> |delegate| == 0
  {
    New(DefaultMinimalSize, DefaultFlushIntervalMillis, delegate, now)
  }

  /** The timer check at the start of `get`, `set`, `remove` and `size`. */
  predicate FlushDue<K(==), V>(c: Cache<K, V>, now: int) {
    now - c.lastFlushTime >= c.flushIntervalMillis * NanosPerMilli
  }

  /** `recycle`: clears the delegate when the timer has run out. */
  function Recycle<K(==), V>(c: Cache<K, V>, now: int): (r: Cache<K, V>)
    ensures r.keyMap == c.keyMap && r.minimalSize == c.minimalSize
    ensures r.flushIntervalMillis == c.flushIntervalMillis
    ensures FlushDue(c, now) ==> |r.delegate| == 0 && r.lastFlushTime == now
    ensures !FlushDue(c, now) ==> r == c
    ensures Valid(c) ==> Valid(r)
  {
    if FlushDue(c, now) then c.(delegate := map[], lastFlushTime := now) else c
  }

  /** An access (`keyMap[key]` on an access-ordered map): a tracked key moves
      to the most recent end; an untracked key is not added. */
  function Touch<K(==)>(keys: seq<K>, key: K): (r: seq<K>)
    ensures multiset(r) == multiset(keys)
    ensures key in keys ==> |r| > 0 && r[|r| - 1] == key
    ensures key !in keys ==> r == keys
    ensures Distinct(keys) ==> Distinct(r)
  {
    if key in keys then
      var rest := RemoveFirst(keys, key);
      RemoveFirstMultiset(keys, key);
      assert Distinct(keys) ==> Distinct(rest + [key]) by {
        if Distinct(keys) {
          RemoveFirstKeepsDistinct(keys, key);
          RemoveFirstMembers(keys, key, key);
          AppendFreshKeepsDistinct(rest, key);
        }
      }
      rest + [key]
    else keys
  }

  /** `keyMap[key] = PRESENT` together with the map's `removeEldestEntry` hook.
      A key already present is only moved to the most recent end and nothing
      is evicted, because the hook runs only after an insertion. A new key is
      appended; when the map then holds more than `minimalSize` keys, the
      eldest key is dropped and returned. */
  function PutKey<K(==)>(keys: seq<K>, key: K, minimalSize: nat): (r: (seq<K>, Option<K>))
    ensures key in keys ==> r == (Touch(keys, key), None)
    ensures key !in keys && |keys| < minimalSize ==> r == (keys + [key], None)
    ensures key !in keys && |keys| >= minimalSize ==>
              r.1 == Some((keys + [key])[0]) && r.0 == (keys + [key])[1..]
    ensures minimalSize >= 1 ==> |r.0| > 0 && r.0[|r.0| - 1] == key
    ensures minimalSize >= 1 && r.1.Some? ==> r.1.value != key
  {
    if key in keys then (Touch(keys, key), None)
    else
      var grown := keys + [key];
      if |grown| > minimalSize then (grown[1..], Some(grown[0])) else (grown, None)
  }

  /** `set`: timer check, store in the delegate, then record the use of `key`
      in the index. If the index grew past `minimalSize`, its eldest key is
      also removed from the delegate. */
  function Set<K(==), V>(c: Cache<K, V>, key: K, value: V, now: int): (r: Cache<K, V>)
    ensures r.minimalSize == c.minimalSize && r.flushIntervalMillis == c.flushIntervalMillis
    ensures r.lastFlushTime == (if FlushDue(c, now) then now else c.lastFlushTime)
    // a tracked key is only moved to the most recent end
    ensures key in c.keyMap ==>
              && multiset(r.keyMap) == multiset(c.keyMap)
              && |r.keyMap| > 0 && r.keyMap[|r.keyMap| - 1] == key
              && r.delegate == Recycle(c, now).delegate[key := value]
    // a new key below the bound is appended and nothing is evicted
    ensures key !in c.keyMap && |c.keyMap| < c.minimalSize ==>
              && r.keyMap == c.keyMap + [key]
              && r.delegate == Recycle(c, now).delegate[key := value]
    // a new key that crosses the bound evicts exactly the eldest tracked key
    // from both the index and the delegate
    ensures key !in c.keyMap && |c.keyMap| >= c.minimalSize ==>
              var eldest := (c.keyMap + [key])[0];
              && r.keyMap == (c.keyMap + [key])[1..]
              && r.delegate == Recycle(c, now).delegate[key := value] - {eldest}
    // with room for at least one key, the value just stored is retrievable
    ensures c.minimalSize >= 1 ==> key in r.delegate && r.delegate[key] == value
    ensures c.minimalSize >= 1 ==> key in r.keyMap && r.keyMap[|r.keyMap| - 1] == key
  {
    var c1 := Recycle(c, now);
    var stored := c1.delegate[key := value];
    var (keys, evicted) := PutKey(c1.keyMap, key, c.minimalSize);
    var delegate := if evicted.Some? then stored - {evicted.value} else stored;
    c1.(delegate := delegate, keyMap := keys)
  }

  /** `get`: timer check, record the use of `key` if it is tracked, then read
      the delegate. A miss is `None`, never an error. */
  function Get<K(==), V>(c: Cache<K, V>, key: K, now: int): (r: (Cache<K, V>, Option<V>))
    ensures r.0.minimalSize == c.minimalSize && r.0.flushIntervalMillis == c.flushIntervalMillis
    ensures r.0.delegate == Recycle(c, now).delegate
    ensures r.0.lastFlushTime == Recycle(c, now).lastFlushTime
    ensures r.1.Some? <==> key in r.0.delegate
    ensures r.1.Some? ==> r.1.value == r.0.delegate[key]
    ensures FlushDue(c, now) ==> r.1 == None
    ensures !FlushDue(c, now) && key in c.delegate ==> r.1 == Some(c.delegate[key])
    // a tracked key becomes the most recent; the others keep their order
    ensures multiset(r.0.keyMap) == multiset(c.keyMap)
    ensures key in c.keyMap ==> r.0.keyMap[|r.0.keyMap| - 1] == key
    // an untracked key does not start being tracked
    ensures key !in c.keyMap ==> r.0.keyMap == c.keyMap
    ensures Distinct(c.keyMap) ==> Distinct(r.0.keyMap)
  {
    var c1 := Recycle(c, now);
    var keys := Touch(c1.keyMap, key);
    var result := if key in c1.delegate then Some(c1.delegate[key]) else None;
    (c1.(keyMap := keys), result)
  }

  /** `remove`: timer check, then remove from the delegate only. The key
      index, and so the recency order, is left as it was. */
  function Remove<K(==), V>(c: Cache<K, V>, key: K, now: int): (r: (Cache<K, V>, Option<V>))
    ensures r.0.keyMap == c.keyMap
    ensures r.0.minimalSize == c.minimalSize && r.0.flushIntervalMillis == c.flushIntervalMillis
    ensures r.0.lastFlushTime == Recycle(c, now).lastFlushTime
    ensures r.0.delegate.Keys == Recycle(c, now).delegate.Keys - {key}
    ensures forall k :: k in r.0.delegate ==> r.0.delegate[k] == Recycle(c, now).delegate[k]
    // the prior value comes back, or `None` when there was none
    ensures r.1.Some? <==> key in Recycle(c, now).delegate
    ensures r.1.Some? ==> r.1.value == Recycle(c, now).delegate[key]
    ensures r.1.None? ==> r.0 == Recycle(c, now)
    ensures Valid(c) ==> Valid(r.0)
  {
    var c1 := Recycle(c, now);
    if key in c1.delegate then (c1.(delegate := c1.delegate - {key}), Some(c1.delegate[key]))
    else (c1, None)
  }

  /** `clear`: empties both the delegate and the index. No timer check, and
      the flush time is not reset. */
  function Clear<K(==), V>(c: Cache<K, V>): (r: Cache<K, V>)
    ensures r.keyMap == [] && |r.delegate| == 0
    ensures r.lastFlushTime == c.lastFlushTime
    ensures r.minimalSize == c.minimalSize && r.flushIntervalMillis == c.flushIntervalMillis
    ensures Valid(r)
  {
    c.(delegate := map[], keyMap := [])
  }

  /** `size`: timer check, then the delegate's count. */
  function Size<K(==), V>(c: Cache<K, V>, now: int): (r: (Cache<K, V>, nat))
    ensures r.0 == Recycle(c, now)
    ensures r.1 == |r.0.delegate|
    ensures FlushDue(c, now) ==> r.1 == 0
    ensures Valid(c) ==> r.1 <= c.minimalSize
  {
    var c1 := Recycle(c, now);
    assert Valid(c) ==> |c1.delegate| <= c.minimalSize by {
      if Valid(c) { DelegateBounded(c1); }
    }
    (c1, |c1.delegate|)
  }

  /** The delegate never holds more than `minimalSize` entries, because every
      key it holds is a distinct tracked key. */
  lemma DelegateBounded<K, V>(c: Cache<K, V>)
    requires Valid(c)
    ensures |c.delegate| <= c.minimalSize
  {
    var tracked := set k | k in c.keyMap;
    DistinctCardinality(c.keyMap);
    assert c.delegate.Keys <= tracked;
    SubsetCardinality(c.delegate.Keys, tracked);
  }

  lemma {:induction false} SubsetCardinality<T>(a: set<T>, b: set<T>)
    requires a <= b
    ensures |a| <= |b|
  {
    if a != {} {
      var x :| x in a;
      SubsetCardinality(a - {x}, b - {x});
    }
  }

  /** With room for at least one key and no flush due at the read, a `get`
      right after a `set` of the same key returns the value just stored. */
  lemma GetAfterSet<K, V>(c: Cache<K, V>, key: K, value: V, setTime: int, getTime: int)
    requires c.minimalSize >= 1
    requires !FlushDue(Set(c, key, value, setTime), getTime)
    ensures Get(Set(c, key, value, setTime), key, getTime).1 == Some(value)
  {
  }

  /** Once the interval has elapsed, every timed operation observes an empty
      delegate, whatever the bound. */
  lemma FlushObservesEmpty<K, V>(c: Cache<K, V>, key: K, now: int)
    requires FlushDue(c, now)
    ensures Get(c, key, now).1 == None
    ensures Size(c, now).1 == 0
    ensures Remove(c, key, now).1 == None
    ensures Get(c, key, now).0.keyMap == Touch(c.keyMap, key)
  {
  }

  /** `clear` is idempotent. */
  lemma ClearIdempotent<K, V>(c: Cache<K, V>)
    ensures Clear(Clear(c)) == Clear(c)
  {
  }

  /** `set` keeps the invariant: the index stays duplicate-free and within
      `minimalSize`, and every key of the delegate stays tracked. */
  lemma SetPreservesValid<K, V>(c: Cache<K, V>, key: K, value: V, now: int)
    requires Valid(c)
    ensures Valid(Set(c, key, value, now))
  {
    var r := Set(c, key, value, now);
    if key !in c.keyMap {
      var grown := c.keyMap + [key];
      AppendFreshKeepsDistinct(c.keyMap, key);
      if |c.keyMap| >= c.minimalSize {
        DropHeadKeepsDistinct(grown);
        forall k | k in r.delegate ensures k in r.keyMap {
          assert k in grown && k != grown[0];
        }
      }
    }
  }

  /** `get` keeps the invariant. */
  lemma GetPreservesValid<K, V>(c: Cache<K, V>, key: K, now: int)
    requires Valid(c)
    ensures Valid(Get(c, key, now).0)
  {
    var r := Get(c, key, now).0;
    assert |r.keyMap| == |c.keyMap| by {
      assert |multiset(r.keyMap)| == |multiset(c.keyMap)|;
    }
    forall k | k in r.delegate ensures k in r.keyMap {
      assert k in multiset(c.keyMap);
    }
  }

  /** `remove` keeps the invariant. */
  lemma RemovePreservesValid<K, V>(c: Cache<K, V>, key: K, now: int)
    requires Valid(c)
    ensures Valid(Remove(c, key, now).0)
  {
  }

  /** A `get` of a tracked key makes it the most recent one and leaves the
      relative order of all other tracked keys as it was. */
  lemma GetKeepsOtherKeysInOrder<K, V>(c: Cache<K, V>, key: K, now: int)
    requires Distinct(c.keyMap) && key in c.keyMap
    ensures var keys := Get(c, key, now).0.keyMap;
            keys[|keys| - 1] == key && RemoveFirst(keys, key) == RemoveFirst(c.keyMap, key)
  {
    var keys := Get(c, key, now).0.keyMap;
    var rest := RemoveFirst(c.keyMap, key);
    RemoveFirstMembers(c.keyMap, key, key);
    assert keys == rest + [key];
    assert IndexOf(keys, key) == |rest| by {
      assert keys[|rest|] == key;
      assert key !in keys[..|rest|] by { assert keys[..|rest|] == rest; }
    }
    assert keys[..|rest|] == rest;
  }

  /** A `set` of a tracked key likewise moves it to the most recent end and
      keeps the relative order of all other tracked keys. */
  lemma SetKeepsOtherKeysInOrder<K, V>(c: Cache<K, V>, key: K, value: V, now: int)
    requires Distinct(c.keyMap) && key in c.keyMap
    ensures var keys := Set(c, key, value, now).keyMap;
            keys[|keys| - 1] == key && RemoveFirst(keys, key) == RemoveFirst(c.keyMap, key)
  {
    var keys := Set(c, key, value, now).keyMap;
    var rest := RemoveFirst(c.keyMap, key);
    RemoveFirstMembers(c.keyMap, key, key);
    assert keys == rest + [key];
    assert IndexOf(keys, key) == |rest| by {
      assert keys[|rest|] == key;
      assert key !in keys[..|rest|] by { assert keys[..|rest|] == rest; }
    }
    assert keys[..|rest|] == rest;
  }
}

=== FILE: cache_recency.dfy ===
/** The least-recently-used guarantee of `ExpirableLRUCache`, stated over
    whole traces of calls.

    A trace is a sequence of operations applied to a cache that starts with
    nothing tracked. Its history of uses lists the keys passed to `set` and
    `get`, in call order, because both count as a use. The theorem: the key
    index is always ordered by last use. So the key that a `set` evicts is
    the tracked key whose last use lies furthest in the past.
 */
module CacheRecency {
  import opened Collections
  import opened LruCache

  /** One call on the cache, with the clock reading it observes. */
  datatype Op<K, V> =
    | SetOp(key: K, value: V, now: int)
    | GetOp(key: K, now: int)
    | RemoveOp(key: K, now: int)
    | SizeOp(now: int)
    | ClearOp

  function Step<K(==), V>(c: Cache<K, V>, op: Op<K, V>): Cache<K, V> {
    match op
    case SetOp(key, value, now) => Set(c, key, value, now)
    case GetOp(key, now) => Get(c, key, now).0
    case RemoveOp(key, now) => Remove(c, key, now).0
    case SizeOp(now) => Size(c, now).0
    case ClearOp => Clear(c)
  }

  /** The state after a trace, applied in order. */
  function Run<K(==), V>(c: Cache<K, V>, ops: seq<Op<K, V>>): Cache<K, V>
    decreases |ops|
  {
    if |ops| == 0 then c else Step(Run(c, ops[..|ops| - 1]), ops[|ops| - 1])
  }

  /** The keys one call uses: `set` and `get` use their key. */
  function OpUses<K, V>(op: Op<K, V>): seq<K> {
    match op
    case SetOp(key, _, _) => [key]
    case GetOp(key, _) => [key]
    case _ => []
  }

  /** The history of uses of a trace. */
  function Uses<K, V>(ops: seq<Op<K, V>>): seq<K>
    decreases |ops|
  {
    if |ops| == 0 then [] else Uses(ops[..|ops| - 1]) + OpUses(ops[|ops| - 1])
  }

  /** The position of the last use of `k` in history `h`, or -1 if `k` was never used. */
  function LastUse<K(==)>(h: seq<K>, k: K): (r: int)
    ensures -1 <= r < |h|
    ensures r >= 0 ==> h[r] == k
    ensures r == -1 <==> k !in h
  {
    if |h| == 0 then -1
    else if h[|h| - 1] == k then |h| - 1
    else
      assert h == h[..|h| - 1] + [h[|h| - 1]];
      LastUse(h[..|h| - 1], k)
  }

  /** Tracked keys appear eldest first: every tracked key was used, and each
      key's last use comes before the last use of every key after it. */
  predicate OrderedByUse<K(==)>(keys: seq<K>, h: seq<K>) {
    && (forall i :: 0 <= i < |keys| ==> LastUse(h, keys[i]) >= 0)
    && (forall i, j :: 0 <= i < j < |keys| ==> LastUse(h, keys[i]) < LastUse(h, keys[j]))
  }

  /** A new use of `x` makes it the latest and changes no other key's last use. */
  lemma LastUseAppend<K>(h: seq<K>, x: K, k: K)
    ensures LastUse(h + [x], k) == if k == x then |h| else LastUse(h, k)
  {
    assert (h + [x])[..|h|] == h;
  }

  /** Using a key that is not tracked keeps the order of the tracked keys. */
  lemma UseOfUntrackedKeepsOrder<K>(keys: seq<K>, h: seq<K>, x: K)
    requires OrderedByUse(keys, h) && x !in keys
    ensures OrderedByUse(keys, h + [x])
  {
    forall i | 0 <= i < |keys| ensures LastUse(h + [x], keys[i]) == LastUse(h, keys[i]) {
      LastUseAppend(h, x, keys[i]);
    }
  }

  /** Appending a freshly used key at the most recent end keeps the order. */
  lemma AppendUsedKeepsOrder<K>(keys: seq<K>, h: seq<K>, x: K)
    requires OrderedByUse(keys, h) && x !in keys
    ensures OrderedByUse(keys + [x], h + [x])
  {
    UseOfUntrackedKeepsOrder(keys, h, x);
    var t := keys + [x];
    LastUseAppend(h, x, x);
    forall i | 0 <= i < |keys| ensures LastUse(h + [x], t[i]) < |h| {
      assert t[i] == keys[i];
    }
  }

  /** Dropping the eldest tracked key keeps the order of the rest. */
  lemma DropEldestKeepsOrder<K>(keys: seq<K>, h: seq<K>)
    requires OrderedByUse(keys, h) && |keys| > 0
    ensures OrderedByUse(keys[1..], h)
  {
    var t := keys[1..];
    forall i | 0 <= i < |t| ensures t[i] == keys[i + 1] { }
  }

  /** Removing one key keeps the order of the rest. */
  lemma RemoveKeepsOrder<K>(keys: seq<K>, h: seq<K>, x: K)
    requires OrderedByUse(keys, h)
    ensures OrderedByUse(RemoveFirst(keys, x), h)
  {
    if x in keys {
      var p := IndexOf(keys, x);
      var r := RemoveFirst(keys, x);
      forall i | 0 <= i < |r| ensures r[i] == keys[if i < p then i else i + 1] { }
    }
  }

  /** Moving a used tracked key to the most recent end keeps the order. */
  lemma TouchKeepsOrder<K>(keys: seq<K>, h: seq<K>, x: K)
    requires OrderedByUse(keys, h) && Distinct(keys)
    ensures OrderedByUse(Touch(keys, x), h + [x])
  {
    if x in keys {
      var rest := RemoveFirst(keys, x);
      RemoveKeepsOrder(keys, h, x);
      RemoveFirstMembers(keys, x, x);
      AppendUsedKeepsOrder(rest, h, x);
    } else {
      UseOfUntrackedKeepsOrder(keys, h, x);
    }
  }

  /** Every call keeps the invariant and the use order. */
  lemma StepKeepsOrder<K, V>(c: Cache<K, V>, h: seq<K>, op: Op<K, V>)
    requires Valid(c) && OrderedByUse(c.keyMap, h)
    ensures Valid(Step(c, op)) && OrderedByUse(Step(c, op).keyMap, h + OpUses(op))
  {
    match op
    case SetOp(key, value, now) =>
      SetPreservesValid(c, key, value, now);
      if key in c.keyMap {
        TouchKeepsOrder(c.keyMap, h, key);
      } else {
        AppendUsedKeepsOrder(c.keyMap, h, key);
        if |c.keyMap| >= c.minimalSize {
          DropEldestKeepsOrder(c.keyMap + [key], h + [key]);
        }
      }
    case GetOp(key, now) =>
      GetPreservesValid(c, key, now);
      TouchKeepsOrder(c.keyMap, h, key);
    case RemoveOp(key, now) =>
      RemovePreservesValid(c, key, now);
      assert h + OpUses(op) == h;
    case SizeOp(now) =>
      assert h + OpUses(op) == h;
    case ClearOp =>
  }

  /** Every state a trace reaches from an empty index keeps the invariant,
      and its index is ordered by last use in the trace's history. */
  lemma {:induction false} RunKeepsOrder<K, V>(c: Cache<K, V>, ops: seq<Op<K, V>>)
    requires Valid(c) && c.keyMap == []
    ensures Valid(Run(c, ops)) && OrderedByUse(Run(c, ops).keyMap, Uses(ops))
    decreases |ops|
  {
    if |ops| > 0 {
      var prefix := ops[..|ops| - 1];
      RunKeepsOrder(c, prefix);
      StepKeepsOrder(Run(c, prefix), Uses(prefix), ops[|ops| - 1]);
    }
  }

  /** The least-recently-used guarantee. When a `set` after any trace evicts
      a key, the evicted key is not the key being set, it leaves the delegate
      too, and its last use is older than that of every other tracked key. */
  lemma EvictsLeastRecentlyUsed<K, V>(c: Cache<K, V>, ops: seq<Op<K, V>>, key: K, value: V, now: int)
    requires Valid(c) && c.keyMap == []
    ensures var before := Run(c, ops);
            var after := Set(before, key, value, now);
            forall e :: e in before.keyMap && e !in after.keyMap ==>
              && e != key
              && e !in after.delegate
              && forall k :: k in before.keyMap && k != e ==> LastUse(Uses(ops), e) < LastUse(Uses(ops), k)
  {
    var before := Run(c, ops);
    var h := Uses(ops);
    RunKeepsOrder(c, ops);
    forall e | e in before.keyMap && e !in Set(before, key, value, now).keyMap
      ensures e != key && e !in Set(before, key, value, now).delegate
      ensures forall k :: k in before.keyMap && k != e ==> LastUse(h, e) < LastUse(h, k)
    {
      SetEvictsOnlyTheEldest(before, key, value, now, e);
      EldestIsLeastRecentlyUsed(before.keyMap, h);
    }
  }

  /** A `set` drops a key from the index only when it adds a new key to a
      full index. */
  lemma SetDropsOnlyWhenFull<K, V>(c: Cache<K, V>, key: K, value: V, now: int, e: K)
    requires e in c.keyMap && e !in Set(c, key, value, now).keyMap
    ensures key !in c.keyMap && |c.keyMap| >= c.minimalSize
  {
    if key in c.keyMap {
      assert false;
    }
  }

  /** A key that one `set` drops from the index is the eldest tracked key,
      is not the key being set, and is gone from the delegate too. */
  lemma SetEvictsOnlyTheEldest<K, V>(c: Cache<K, V>, key: K, value: V, now: int, e: K)
    requires Valid(c)
    requires e in c.keyMap && e !in Set(c, key, value, now).keyMap
    ensures |c.keyMap| > 0 && e == c.keyMap[0]
    ensures e != key && e !in Set(c, key, value, now).delegate
  {
    var keys := c.keyMap;
    SetDropsOnlyWhenFull(c, key, value, now, e);
    assert Set(c, key, value, now).keyMap == keys[1..] + [key] by {
      assert (keys + [key])[1..] == keys[1..] + [key];
    }
  }

  /** The eldest tracked key has the oldest last use. */
  lemma EldestIsLeastRecentlyUsed<K>(keys: seq<K>, h: seq<K>)
    requires OrderedByUse(keys, h) && Distinct(keys) && |keys| > 0
    ensures forall k :: k in keys && k != keys[0] ==> LastUse(h, keys[0]) < LastUse(h, k)
  {
    forall k | k in keys && k != keys[0] ensures LastUse(h, keys[0]) < LastUse(h, k) {
      var j :| 0 <= j < |keys| && keys[j] == k;
    }
  }

  /** The sets of a list of keys, all with the same value and clock. */
  function SetAll<K, V>(ks: seq<K>, value: V, now: int): (ops: seq<Op<K, V>>)
    ensures |ops| == |ks|
    ensures forall i :: 0 <= i < |ks| ==> ops[i] == SetOp(ks[i], value, now)
  {
    seq(|ks|, i requires 0 <= i < |ks| => SetOp(ks[i], value, now))
  }

  /** A prefix of the sets is the sets of the prefix. */
  lemma SetAllPrefix<K, V>(ks: seq<K>, value: V, now: int, n: nat)
    requires n <= |ks|
    ensures SetAll(ks, value, now)[..n] == SetAll(ks[..n], value, now)
  {
  }

  /** The last set of a non-empty list follows the sets of the others. */
  lemma RunSetAllLast<K, V>(c: Cache<K, V>, ks: seq<K>, value: V, now: int)
    requires |ks| > 0
    ensures var n := |ks| - 1;
            Run(c, SetAll(ks, value, now)) == Set(Run(c, SetAll(ks[..n], value, now)), ks[n], value, now)
  {
    var n := |ks| - 1;
    var ops := SetAll(ks, value, now);
    SetAllPrefix(ks, value, now, n);
    assert ops[n] == SetOp(ks[n], value, now);
  }

  /** The same sets, folded directly. */
  function SetEach<K(==), V>(c: Cache<K, V>, ks: seq<K>, value: V, now: int): Cache<K, V>
    decreases |ks|
  {
    if |ks| == 0 then c else Set(SetEach(c, ks[..|ks| - 1], value, now), ks[|ks| - 1], value, now)
  }

  lemma {:induction false} RunSetAllIsSetEach<K, V>(c: Cache<K, V>, ks: seq<K>, value: V, now: int)
    ensures Run(c, SetAll(ks, value, now)) == SetEach(c, ks, value, now)
    decreases |ks|
  {
    if |ks| > 0 {
      RunSetAllIsSetEach(c, ks[..|ks| - 1], value, now);
      RunSetAllLast(c, ks, value, now);
    }
  }

  lemma {:induction false} SetEachTracksAll<K, V>(c: Cache<K, V>, ks: seq<K>, value: V, now: int)
    requires c.keyMap == []
    requires Distinct(ks) && |ks| <= c.minimalSize
    ensures SetEach(c, ks, value, now).keyMap == ks
    ensures SetEach(c, ks, value, now).minimalSize == c.minimalSize
    decreases |ks|
  {
    if |ks| > 0 {
      var init, last := ks[..|ks| - 1], ks[|ks| - 1];
      DropLastKeepsDistinct(ks);
      SetEachTracksAll(c, init, value, now);
      SetFreshKeyAppends(SetEach(c, init, value, now), last, value, now);
      FrontAndLast(ks);
    }
  }

  /** A new key set below the bound is appended to the index. */
  lemma SetFreshKeyAppends<K, V>(c: Cache<K, V>, key: K, value: V, now: int)
    requires key !in c.keyMap && |c.keyMap| < c.minimalSize
    ensures Set(c, key, value, now).keyMap == c.keyMap + [key]
    ensures Set(c, key, value, now).minimalSize == c.minimalSize
  {
  }

  /** Setting at most `minimalSize` distinct keys into an empty index tracks
      all of them, in insertion order. */
  lemma SetDistinctKeysTracksAll<K, V>(c: Cache<K, V>, ks: seq<K>, value: V, now: int)
    requires Valid(c) && c.keyMap == []
    requires Distinct(ks) && |ks| <= c.minimalSize
    ensures Run(c, SetAll(ks, value, now)).keyMap == ks
    ensures Run(c, SetAll(ks, value, now)).minimalSize == c.minimalSize
  {
    RunSetAllIsSetEach(c, ks, value, now);
    SetEachTracksAll(c, ks, value, now);
  }

  /** The bound, on a concrete scenario: after `minimalSize + 1` distinct keys
      are set into an empty index, the first key set, which is the least
      recently used one, is gone from both the index and the delegate, and
      the cache reports at most `minimalSize` entries. */
  lemma OneOverTheBoundEvictsTheFirst<K, V>(c: Cache<K, V>, ks: seq<K>, value: V, now: int)
    requires Valid(c) && c.keyMap == []
    requires Distinct(ks) && |ks| == c.minimalSize + 1
    ensures var r := Run(c, SetAll(ks, value, now));
            && r.keyMap == ks[1..]
            && ks[0] !in r.delegate
            && Size(r, now).1 <= c.minimalSize
  {
    var n := |ks| - 1;
    DropLastKeepsDistinct(ks);
    SetDistinctKeysTracksAll(c, ks[..n], value, now);
    RunSetAllLast(c, ks, value, now);
    FrontAndLast(ks);
    RunKeepsOrder(c, SetAll(ks, value, now));
  }
}

=== FILE: collections.dfy ===
/** Small collection helpers shared by the cache and the tab model.

    The Kotlin code relies on two list primitives whose exact semantics matter
    for the tab and history logic: `List.indexOf`, which answers -1 for a
    missing element, and `MutableList.remove(element)`, which drops only the
    first equal element and does nothing when there is none.
 */
module Collections {

  /** Kotlin's nullable result (`V?`). */
  datatype Option<+T> = None | Some(value: T)

  /** Every element occurs at most once. */
  predicate Distinct<T(==)>(s: seq<T>) {
    forall i, j :: 0 <= i < j < |s| ==> s[i] != s[j]
  }

  /** `List.indexOf`: the position of the first element equal to `x`, or -1. */
  function IndexOf<T(==)>(s: seq<T>, x: T): (r: int)
    ensures -1 <= r < |s|
    ensures r == -1 <==> x !in s
    ensures 0 <= r ==> s[r] == x && x !in s[..r]
  {
    if |s| == 0 then -1
    else if s[0] == x then 0
    else
      var i := IndexOf(s[1..], x);
      if i == -1 then -1
      else
        assert s[..i + 1] == [s[0]] + s[1..][..i];
        i + 1
  }

  /** A position holding `x` with no earlier `x` is the one `indexOf` finds. */
  lemma IndexOfUnique<T>(s: seq<T>, x: T, p: int)
    requires 0 <= p < |s| && s[p] == x && x !in s[..p]
    ensures IndexOf(s, x) == p
  {
    var r := IndexOf(s, x);
    assert forall i :: 0 <= i < p ==> s[..p][i] == s[i];
    assert forall i :: 0 <= i < r ==> s[..r][i] == s[i];
  }

  /** `MutableList.remove(element)`: drops the first element equal to `x`. */
  function RemoveFirst<T(==)>(s: seq<T>, x: T): (r: seq<T>)
    ensures x !in s ==> r == s
    ensures x in s ==> |r| == |s| - 1 && r == s[..IndexOf(s, x)] + s[IndexOf(s, x) + 1..]
  {
    var p := IndexOf(s, x);
    if p < 0 then s else s[..p] + s[p + 1..]
  }

  /** Cutting out position `p` takes one copy of `s[p]` out of the multiset. */
  lemma CutMultiset<T>(s: seq<T>, p: int)
    requires 0 <= p < |s|
    ensures multiset(s[..p] + s[p + 1..]) == multiset(s) - multiset{s[p]}
  {
    assert s == s[..p] + [s[p]] + s[p + 1..];
  }

  /** After cutting out position `p`, the earlier elements stay put and the
      later ones move one place forward. */
  lemma CutAt<T>(s: seq<T>, p: int, i: int)
    requires 0 <= p < |s| && 0 <= i < |s| - 1
    ensures (s[..p] + s[p + 1..])[i] == s[if i < p then i else i + 1]
  {
  }

  /** `remove(x)` takes one copy of `x` out of the multiset of elements, and
      nothing else. */
  lemma RemoveFirstMultiset<T>(s: seq<T>, x: T)
    ensures multiset(RemoveFirst(s, x)) == multiset(s) - multiset{x}
  {
    if x in s {
      CutMultiset(s, IndexOf(s, x));
    } else {
      assert multiset(s)[x] == 0;
    }
  }

  /** After `remove(x)`, the elements before the removed position stay put
      and the later ones move one place forward. */
  lemma RemoveFirstAt<T>(s: seq<T>, x: T, i: int)
    requires x in s && 0 <= i < |RemoveFirst(s, x)|
    ensures RemoveFirst(s, x)[i] == s[if i < IndexOf(s, x) then i else i + 1]
  {
    CutAt(s, IndexOf(s, x), i);
  }

  /** Removing an element keeps the others in their relative order, so a
      list without duplicates stays without duplicates. */
  lemma RemoveFirstKeepsDistinct<T>(s: seq<T>, x: T)
    requires Distinct(s)
    ensures Distinct(RemoveFirst(s, x))
  {
    if x in s {
      var p := IndexOf(s, x);
      var r := RemoveFirst(s, x);
      forall i, j | 0 <= i < j < |r| ensures r[i] != r[j] {
        var i' := if i < p then i else i + 1;
        var j' := if j < p then j else j + 1;
        assert r[i] == s[i'] && r[j] == s[j'];
      }
    }
  }

  /** An element of a list without duplicates occurs exactly once. */
  lemma DistinctOccursOnce<T>(s: seq<T>, x: T)
    requires Distinct(s) && x in s
    ensures multiset(s)[x] == 1
  {
    var p := IndexOf(s, x);
    var front, back := s[..p], s[p + 1..];
    assert x !in back by {
      forall k | 0 <= k < |back| ensures back[k] != x {
        assert back[k] == s[p + 1 + k];
      }
    }
    assert s == front + [x] + back;
    assert multiset(s) == multiset(front) + multiset{x} + multiset(back);
  }

  /** In a list without duplicates, `remove(x)` leaves exactly the other elements. */
  lemma RemoveFirstMembers<T>(s: seq<T>, x: T, y: T)
    requires Distinct(s)
    ensures y in RemoveFirst(s, x) <==> y in s && y != x
  {
    if x in s {
      DistinctOccursOnce(s, x);
      RemoveFirstMultiset(s, x);
      var r := RemoveFirst(s, x);
      assert multiset(r)[y] == multiset(s)[y] - (if y == x then 1 else 0);
    }
  }

  /** In a list without duplicates, removing its last element with
      `remove(element)` is the same as dropping the tail position. */
  lemma RemoveLastOfDistinct<T>(s: seq<T>)
    requires Distinct(s) && |s| > 0
    ensures RemoveFirst(s, s[|s| - 1]) == s[..|s| - 1]
  {
    var x := s[|s| - 1];
    var p := IndexOf(s, x);
    assert s[p] == x;
    assert p == |s| - 1;
  }

  /** Appending an element not yet present keeps a list free of duplicates. */
  lemma AppendFreshKeepsDistinct<T>(s: seq<T>, x: T)
    requires Distinct(s) && x !in s
    ensures Distinct(s + [x])
  {
    var t := s + [x];
    forall i, j | 0 <= i < j < |t| ensures t[i] != t[j] {
      if j == |s| { assert t[i] == s[i]; }
    }
  }

  /** Dropping the head keeps a list free of duplicates and keeps every other element. */
  lemma DropHeadKeepsDistinct<T>(s: seq<T>)
    requires Distinct(s) && |s| > 0
    ensures Distinct(s[1..])
    ensures s[0] !in s[1..]
    ensures forall y :: y in s && y != s[0] ==> y in s[1..]
  {
    var t := s[1..];
    forall i, j | 0 <= i < j < |t| ensures t[i] != t[j] {
      assert t[i] == s[i + 1] && t[j] == s[j + 1];
    }
    forall k | 0 <= k < |t| ensures t[k] != s[0] {
      assert t[k] == s[k + 1];
    }
    assert s == [s[0]] + t;
  }

  /** Dropping the last element keeps a list free of duplicates, and the
      dropped element is not among the rest. */
  lemma DropLastKeepsDistinct<T>(s: seq<T>)
    requires Distinct(s) && |s| > 0
    ensures Distinct(s[..|s| - 1])
    ensures s[|s| - 1] !in s[..|s| - 1]
  {
    var t := s[..|s| - 1];
    forall i, j | 0 <= i < j < |t| ensures t[i] != t[j] {
      assert t[i] == s[i] && t[j] == s[j];
    }
    forall k | 0 <= k < |t| ensures t[k] != s[|s| - 1] {
      assert t[k] == s[k];
    }
  }

  /** A non-empty list is its front followed by its last element. */
  lemma FrontAndLast<T>(s: seq<T>)
    requires |s| > 0
    ensures s[..|s| - 1] + [s[|s| - 1]] == s
  {
  }

  /** A list without duplicates has as many elements as the set of its elements. */
  lemma {:induction false} DistinctCardinality<T>(s: seq<T>)
    requires Distinct(s)
    ensures |set x | x in s| == |s|
  {
    if |s| > 0 {
      var t := s[1..];
      assert Distinct(t) by {
        forall i, j | 0 <= i < j < |t| ensures t[i] != t[j] {
          assert t[i] == s[i + 1] && t[j] == s[j + 1];
        }
      }
      DistinctCardinality(t);
      assert s[0] !in t by {
        forall k | 0 <= k < |t| ensures t[k] != s[0] {
          assert t[k] == s[k + 1];
        }
      }
      assert (set x | x in s) == {s[0]} + (set x | x in t) by {
        assert s == [s[0]] + t;
      }
    }
  }
}

=== FILE: github.dfy ===
/** The two network types the core needs. */
module GitHub {

  /** `GitHubTopic`, a data class compared field by field. The cache is keyed
      by `htmlUrl`, the README is fetched by `fullName`, and `details` stands
      for all the other fields (name, dates, counts, owner, ...). */
  datatype Topic = Topic(htmlUrl: string, fullName: string, details: string)

  /** `ReadMeResponse`. */
  datatype ReadMeResponse = Success(content: string) | Failed(message: string) | Loading
}

=== FILE: repo_loading.dfy ===
/** `BaseRepoViewModel.load`: show a repository's README, from the shared
    cache when it holds the repository, otherwise from the network.

    The cache is the process-wide `Cached.cache`, an `ExpirableLRUCache`
    keyed by the repository's `htmlUrl` that holds at most ten entries and
    forgets everything five minutes after its last flush. The network call
    is looked up by `fullName`; it is a parameter here, returning either a
    response or the fact that it threw.
 */
module RepoLoading {
  import opened Collections
  import opened GitHub
  import opened LruCache

  /** `CachedTopic`: what the cache stores for one repository. */
  datatype CachedTopic = CachedTopic(topic: Topic, repoContent: string)

  /** `Result<ReadMeResponse>` from `Network.getReadMe`: a decoded response,
      or a failure (network error, cancellation, ...). */
  datatype FetchOutcome = Returned(response: ReadMeResponse) | Threw

  /** The state a repository screen shows. */
  datatype RepoVM = RepoVM(item: Topic, repoContent: ReadMeResponse, error: bool, showWebView: bool)

  /** `Cached.cache`'s parameters: ten entries, a five-minute interval. */
  const CachedMinimalSize: nat := 10
  const CachedFlushIntervalMillis: int := 5 * 60 * 1000

  type ReadMeCache = Cache<string, CachedTopic>

  /** The shared cache as first built, with the timer started at `now`. */
  function NewReadMeCache(now: int): (c: ReadMeCache)
    ensures Valid(c) && c.keyMap == [] && |c.delegate| == 0
    ensures c.minimalSize == 10 && c.flushIntervalMillis == 300_000 && c.lastFlushTime == now
  {
    New(CachedMinimalSize, CachedFlushIntervalMillis, map[], now)
  }

  /** A fresh screen: still loading, no error, README view shown. */
  function NewRepoVM(item: Topic): (vm: RepoVM)
    ensures vm.item == item && vm.repoContent == Loading && !vm.error && !vm.showWebView
  {
    RepoVM(item, Loading, false, false)
  }

  /** Whether the cache answers a lookup of `htmlUrl` at time `now`. */
  predicate Hits(cache: ReadMeCache, htmlUrl: string, now: int) {
    !FlushDue(cache, now) && htmlUrl in cache.delegate
  }

  /** `load`: the cache lookup happens at `getTime`; a successful download is
      stored at the later `setTime`. */
  function Load(vm: RepoVM, cache: ReadMeCache, fetch: string -> FetchOutcome, getTime: int, setTime: int)
    : (r: (RepoVM, ReadMeCache))
    ensures r.0.item == vm.item && r.0.showWebView == vm.showWebView
    // a hit shows the cached README, consults no network and sets no error
    ensures Hits(cache, vm.item.htmlUrl, getTime) ==>
              && r.0.repoContent == Success(cache.delegate[vm.item.htmlUrl].repoContent)
              && r.0.error == vm.error
              && r.1 == Get(cache, vm.item.htmlUrl, getTime).0
              && r.1.delegate == cache.delegate
    // a miss shows whatever the download returned, and caches it only when it is a README
    ensures !Hits(cache, vm.item.htmlUrl, getTime) && fetch(vm.item.fullName).Returned? ==>
              var response := fetch(vm.item.fullName).response;
              && r.0.repoContent == response
              && r.0.error == vm.error
              && (response.Success? ==>
                    r.1 == Set(Get(cache, vm.item.htmlUrl, getTime).0, vm.item.htmlUrl,
                               CachedTopic(vm.item, response.content), setTime))
              && (response.Success? && cache.minimalSize >= 1 ==>
                    r.1.delegate[vm.item.htmlUrl] == CachedTopic(vm.item, response.content))
              && (!response.Success? ==>
                    r.1 == Get(cache, vm.item.htmlUrl, getTime).0 && r.1.delegate == Recycle(cache, getTime).delegate)
    // a failed download raises the error flag and leaves the content as it was
    ensures !Hits(cache, vm.item.htmlUrl, getTime) && fetch(vm.item.fullName).Threw? ==>
              && r.0.repoContent == vm.repoContent
              && r.0.error
              && r.1 == Get(cache, vm.item.htmlUrl, getTime).0
              && r.1.delegate == Recycle(cache, getTime).delegate
    ensures Valid(cache) ==> Valid(r.1)
  {
    var (c1, cached) := Get(cache, vm.item.htmlUrl, getTime);
    assert Valid(cache) ==> Valid(c1) by {
      if Valid(cache) { GetPreservesValid(cache, vm.item.htmlUrl, getTime); }
    }
    if cached.Some? then
      (vm.(repoContent := Success(cached.value.repoContent)), c1)
    else
      match fetch(vm.item.fullName)
      case Returned(response) =>
        if response.Success? then
          var c2 := Set(c1, vm.item.htmlUrl, CachedTopic(vm.item, response.content), setTime);
          assert Valid(c1) ==> Valid(c2) by {
            if Valid(c1) { SetPreservesValid(c1, vm.item.htmlUrl, CachedTopic(vm.item, response.content), setTime); }
          }
          (vm.(repoContent := response), c2)
        else (vm.(repoContent := response), c1)
      case Threw => (vm.(error := true), c1)
  }

  /** The download is looked up by `fullName` alone: two network functions
      that agree there make `load` behave the same. */
  lemma LoadConsultsOnlyFullName(vm: RepoVM, cache: ReadMeCache, f: string -> FetchOutcome,
                                 g: string -> FetchOutcome, getTime: int, setTime: int)
    requires f(vm.item.fullName) == g(vm.item.fullName)
    ensures Load(vm, cache, f, getTime, setTime) == Load(vm, cache, g, getTime, setTime)
  {
  }

  /** Once a README has been shown, loading the same repository again
      before the cache is next flushed is served from the cache: it shows
      the same README whatever the network would now answer. This needs room
      for at least one entry, which the shared cache has. */
  lemma ReloadHitsCache(vm: RepoVM, cache: ReadMeCache, fetch: string -> FetchOutcome, later: string -> FetchOutcome,
                        getTime: int, setTime: int, reloadTime: int, content: string)
    requires cache.minimalSize >= 1
    requires fetch(vm.item.fullName) == Returned(Success(content))
    requires !FlushDue(Load(vm, cache, fetch, getTime, setTime).1, reloadTime)
    ensures var (vm1, cache1) := Load(vm, cache, fetch, getTime, setTime);
            && vm1.repoContent.Success?
            && Hits(cache1, vm.item.htmlUrl, reloadTime)
            && Load(vm1, cache1, later, reloadTime, reloadTime).0.repoContent == vm1.repoContent
  {
    var url := vm.item.htmlUrl;
    if !Hits(cache, url, getTime) {
      var c1 := Get(cache, url, getTime).0;
      assert c1.minimalSize >= 1;
    }
  }

  /** `Cached.map` while the builder block runs: nothing stored yet. */
  const BackingMapAtBuild: map<string, CachedTopic> := map[]

  /** `Cached.cache.size` as written. The builder block assigns
      `size = map.size` once, while the cache is being built, and the built
      delegate reports that stored number ever after; the backing map is
      empty then, so the delegate's size is always zero. The cache's own
      `size` still runs the timer check first. */
  function CachedSizeAsWritten(cache: ReadMeCache, now: int): (r: (ReadMeCache, nat))
    ensures r.0 == Recycle(cache, now)
    ensures r.1 == 0
  {
    (Recycle(cache, now), |BackingMapAtBuild|)
  }

  /** The frozen count disagrees with the entries actually held: straight
      after one README is stored, `size` as written still answers zero,
      while the live count that `LruCache.Size` models answers one. */
  lemma CachedSizeIgnoresStoredEntry(now: int, item: Topic, content: string)
    ensures var c := Set(NewReadMeCache(now), item.htmlUrl, CachedTopic(item, content), now);
            && CachedSizeAsWritten(c, now).1 == 0
            && Size(c, now).1 == 1
  {
    var c := Set(NewReadMeCache(now), item.htmlUrl, CachedTopic(item, content), now);
    assert c.delegate == map[item.htmlUrl := CachedTopic(item, content)];
  }
}
